=== FILE: README.md ===
# Feature-dataset batch pipeline (CandySorter trainer)

This project models the feature extraction pipeline of the CandySorter trainer
(`train/trainer/feature_extractor.py`) and proves properties of that model. The
pipeline turns a tree of images into newline-delimited JSON feature files for
training or prediction:

- **Labels.** The label names are the sub-directories of the training image
  directory, sorted. A label's id is its position in that list. In training
  mode the list is written to `labels.json`.
- **Image records.** The image records are `(path, label_id)` pairs, grouped by
  label in ascending label order. In prediction mode they are
  `(path, None)` pairs, one per image globbed in the image directory.
- **Chunks.** `generate_image_chunks` slices the records into contiguous
  windows of `ceil(n / threads)` records. That gives `ceil(n / ceil(n / threads))`
  windows, which can be fewer than `threads`, and `main` hands `chunks[i]` to
  every worker `i < threads` (see Findings). The pipeline model uses a corrected
  partition with exactly one chunk per worker, whose first chunks are those
  windows and whose last ones are empty.
- **Workers.** Each worker writes a partial file `<prefix><index>.json`. A
  record produces one line per rotation `0 .. rotations` and per gamma pair,
  in that order. After every 20th record the worker puts `("PROGRESS", 20)` on
  a shared queue.
- **Progress printer.** The printer adds up the `PROGRESS` counts until it
  takes a `CLOSE` message.
- **Merge.** The partial files are concatenated, in the order the directory
  walk lists them, into `features.json` (or `testfeatures.json` in the test
  pass) and deleted.

The model is organised by the program's own structure:

- `wrappers.dfy` holds `Option` and `Result`.
- `json.dfy` holds the JSON values that a line holds.
- `messages.dfy` holds the progress messages and the queue, a class whose `items` the
  methods update.
- `storage.dfy` holds the output directory, a class with a `files` map and a `listing` in
  walk order. It also holds `MergeFiles`, the model of `_merge_files`, with the
  loop over the listing.
- `extraction.dfy` holds `extract_data_for_path`, the expansion of records into lines,
  the process writer and the thread writer. The writers are imperative loops
  proved against `ExpandAll`.
- `enumeration.dfy` holds label discovery (`get_labels`, including a sort proved
  sorted and a permutation), the two path generators, and the labels
  document.
- `chunking.dfy` holds `generate_image_chunks` as written. It also holds the
  one-chunk-per-worker partition that `main` needs (see Findings), and the
  orders in which a walk can list the workers' files (`IsOrder`, a permutation
  of the worker indices) with `Reorder`.
- `progress.dfy` holds `ProgressProcess` as a loop proved against `Consume`, and
  `progress_iterator`.
- `partial_files.dfy` holds the partial file names `<prefix><index>.json`, the
  directory once the workers have written them in some order, and what the
  merge makes of them.
- `pipeline.dfy` holds one pass of `main`, run step by step: partition,
  writers, `CLOSE`, drain and merge. It also holds `main` itself in training
  and test mode. A pass takes the order `walk` in which the directory walk
  lists the partial files; the workers run one at a time in that order, so
  each creates its file in that order.

The feature extractor (TensorFlow) is a parameter of type
`(path, turn, gammaMin, gammaMax) -> seq<real>`. The image tree (directory
listing, is-directory test, glob) is a value of type `ImageStore` whose
functions give the library's answers.

## Model

| member | source | states |
|---|---|---|
| Json.NumberItemsRoundTrip | train/trainer/feature_extractor.py:367 | reading the `feature_vector` array back as numbers gives exactly the vector that was written |
| Json.StringItemsRoundTrip | train/trainer/feature_extractor.py:187 | reading an array of strings back gives exactly the list of labels that was written |
| Messages.ReportedPermutation | train/trainer/feature_extractor.py:389-394 | the total a consumer adds up does not depend on the order in which the workers' messages were interleaved on the queue |
| Messages.ReportedAppend | train/trainer/feature_extractor.py:393-394 | the count reported by two runs of messages is the sum of their counts |
| Messages.MessageQueue.Put | train/trainer/feature_extractor.py:361 | `put` appends the message at the back of the queue |
| Messages.MessageQueue.Get | train/trainer/feature_extractor.py:390 | `get` on a non-empty queue returns the front message and removes it |
| Storage.Opened | train/trainer/feature_extractor.py:287 | opening a file for writing lists its name, once, keeping the listing free of duplicates |
| Storage.Without | train/trainer/feature_extractor.py:294 | after `os.remove` the listing holds exactly the other names |
| Storage.KeepUnprefixedNone | train/trainer/feature_extractor.py:288-290 | a walk over a listing with no prefixed name keeps every name |
| Storage.KeepUnprefixedMember | train/trainer/feature_extractor.py:288-294 | after the merge a name is listed iff it was listed and does not start with the prefix |
| Storage.Directory.Create | train/trainer/feature_extractor.py:287 | `FastGFile(path, 'w')` creates or truncates the file to empty and lists it |
| Storage.Directory.Write | train/trainer/feature_extractor.py:293 | a write appends its lines to the file and changes nothing else |
| Storage.Directory.Read | train/trainer/feature_extractor.py:292 | a read returns the file's whole content |
| Storage.Directory.Remove | train/trainer/feature_extractor.py:294 | `os.remove` deletes the file and unlists it |
| Storage.MoveInto | train/trainer/feature_extractor.py:291-294 | one step of the merge: the partial file's content is appended to the output file and the partial file is removed |
| Storage.MergeAt | train/trainer/feature_extractor.py:289-294 | one iteration of the walk keeps the merge invariant: files and listing as after the first k listed names |
| Storage.MergeListed | train/trainer/feature_extractor.py:288-294 | after the walk the output holds the prefixed files' contents in listing order, those files are gone and the listing keeps only unprefixed names |
| Storage.MergeFiles | train/trainer/feature_extractor.py:285-294 | `_merge_files`: the output file holds the concatenation of every prefixed file in listing order; no prefixed file remains; every other unprefixed file is unchanged; an absent name is skipped |
| Extraction.ExtractDataForPathFields | train/trainer/feature_extractor.py:363-371 | the line holds `image_uri` = the path and `feature_vector` = the extractor's vector, and holds `label_id` = the id iff the label is present; no other key |
| Extraction.LineRecordRoundTrip | train/trainer/feature_extractor.py:363-371 | reading `image_uri` and `label_id` back from a written line gives the record it was written for |
| Extraction.GammaLinesAt | train/trainer/feature_extractor.py:356-357 | one turn of one record gives one line per gamma pair, the g-th for the g-th pair |
| Extraction.RecordLinesLength | train/trainer/feature_extractor.py:355-358 | one record gives turns × gamma pairs lines |
| Extraction.RecordLinesAt | train/trainer/feature_extractor.py:355-358 | within a record, the line for turn t and gamma pair g comes at position t × gamma pairs + g |
| Extraction.ExpandAllAppend | train/trainer/feature_extractor.py:354-358 | the lines of a concatenation of records are the lines of each part, in order |
| Extraction.ExpandAllLength | train/trainer/feature_extractor.py:354-358 | the expansion has records × (turns × gamma pairs) lines |
| Extraction.ExpandAllCount | train/trainer/feature_extractor.py:352-358 | `write_features` writes `len(image_list) × (rotations + 1) × gamma pairs` lines, none when rotations < 0 |
| Extraction.ExpandAllBlock | train/trainer/feature_extractor.py:354-358 | record k's lines form a contiguous block that starts after the lines of the k records before it |
| Extraction.ExpandAllAt | train/trainer/feature_extractor.py:354-358 | the line for record k, turn t and gamma pair g is at position k × per-record lines + t × gamma pairs + g |
| Extraction.ExpandAllPosition | train/trainer/feature_extractor.py:352-358 | the same position as a product: ordered by record, then rotation ascending, then gamma pair `(1,1)` before `(0.5,1.3)` |
| Extraction.ProgressMessagesCount | train/trainer/feature_extractor.py:360-361 | n records give `n / 20` messages, each `("PROGRESS", 20)`, reporting `20 × (n / 20)` records, short of n by fewer than 20 |
| Extraction.WriteRecord | train/trainer/feature_extractor.py:355-358 | the two inner loops write the record's lines, turn by turn, gamma pair by gamma pair |
| Extraction.WriteBatch | train/trainer/feature_extractor.py:168-172 | the thread writer's batch loop writes the expansion of the batch |
| Extraction.FeaturesDataWriterProcess.constructor | train/trainer/feature_extractor.py:347-350 | the writer keeps its image list, extractor and queue |
| Extraction.FeaturesDataWriterProcess.WriteFeatures | train/trainer/feature_extractor.py:352-361 | the file holds the expansion of the image list with the process gamma pairs; the queue gets exactly one `("PROGRESS", 20)` per 20th record, after what it held |
| Extraction.PathCursor.NextBatch | train/trainer/feature_extractor.py:161 | `islice` takes the next `min(batch_size, remaining)` records off the shared stream, in order |
| Extraction.FeaturesDataWriter.WriteFeatures | train/trainer/feature_extractor.py:156-172 | a negative batch size raises `ValueError` and writes nothing; zero writes nothing; a positive one writes the expansion of the whole remaining stream with gammas 0.5, 1, 1.5 and exhausts it |
| Enumeration.JoinPath | train/trainer/feature_extractor.py:126 | `os.path.join`: an absolute second part replaces the first; otherwise the result starts with the first part and ends with the second |
| Enumeration.NoLaterTotal | train/trainer/feature_extractor.py:118 | the string order `sorted` uses is total |
| Enumeration.NoLaterTransitive | train/trainer/feature_extractor.py:118 | the string order is transitive |
| Enumeration.NoLaterAntisymmetric | train/trainer/feature_extractor.py:118 | the string order is antisymmetric |
| Enumeration.Insert | train/trainer/feature_extractor.py:118 | inserting adds exactly the one element |
| Enumeration.InsertAscending | train/trainer/feature_extractor.py:118 | inserting into an ascending list keeps it ascending |
| Enumeration.SortStrings | train/trainer/feature_extractor.py:118 | `sorted` returns a permutation of its input |
| Enumeration.SortStringsAscending | train/trainer/feature_extractor.py:118 | `sorted` returns an ascending list |
| Enumeration.SortStringsDistinct | train/trainer/feature_extractor.py:118 | sorting names without duplicates gives names without duplicates |
| Enumeration.Subdirectories | train/trainer/feature_extractor.py:119-121 | an entry is kept iff `image_dir/entry` is a directory |
| Enumeration.GetLabelsSpec | train/trainer/feature_extractor.py:117-122 | the labels are ascending, and a name is a label iff it is listed in the image directory and is a directory |
| Enumeration.GetLabelsDistinct | train/trainer/feature_extractor.py:117-122 | a listing without duplicates gives labels without duplicates |
| Enumeration.Tag | train/trainer/feature_extractor.py:128-129 | the i-th record pairs the i-th path with the given label |
| Enumeration.TagPaths | train/trainer/feature_extractor.py:140-141 | the yield loop produces the tagged paths in order |
| Enumeration.TrainingPaths | train/trainer/feature_extractor.py:124-130 | the training generator yields the records of every label, label by label |
| Enumeration.LabelRecordsSound | train/trainer/feature_extractor.py:124-129 | every yielded record carries the id of a label and a path globbed under that label; ids never decrease along the stream |
| Enumeration.LabelRecordsComplete | train/trainer/feature_extractor.py:124-129 | every path globbed under a label is yielded with that label's id |
| Enumeration.TrainingRecordsSpec | train/trainer/feature_extractor.py:124-129 | a record's id indexes the label whose directory holds the path, and that label is the id-th entry of the labels document; every globbed path of every label is yielded |
| Enumeration.PredictionPaths | train/trainer/feature_extractor.py:138-142 | the prediction generator yields every globbed path, in order, with no label |
| Enumeration.LabelsDocumentRoundTrip | train/trainer/feature_extractor.py:185-187 | reading the labels document back gives the labels |
| Enumeration.WriteLabels | train/trainer/feature_extractor.py:185-187 | `write_labels` leaves the labels file holding exactly the labels document and nothing else changed |
| Chunking.CeilDiv | train/trainer/feature_extractor.py:333 | `ceil(n / d)`: the least q with q × d ≥ n for positive d, and the least q with q × d ≤ n for negative d |
| Chunking.CeilDivLeast | train/trainer/feature_extractor.py:333 | no smaller multiplier reaches n |
| Chunking.CeilDivUnique | train/trainer/feature_extractor.py:333 | the ceiling is the unique q with (q − 1) × d < n ≤ q × d |
| Chunking.CeilDivStep | train/trainer/feature_extractor.py:333 | d more elements need exactly one more window |
| Chunking.FlattenAppend | train/trainer/feature_extractor.py:337 | concatenating chunk lists concatenates their contents |
| Chunking.WindowsFlatten | train/trainer/feature_extractor.py:336-337 | concatenating the slices gives back the list: nothing dropped, duplicated or reordered |
| Chunking.WindowsSizes | train/trainer/feature_extractor.py:336-337 | every slice is full but the last, which is non-empty and no longer |
| Chunking.WindowsCount | train/trainer/feature_extractor.py:336-337 | there are `ceil(n / chunk_size)` slices |
| Chunking.SliceWindows | train/trainer/feature_extractor.py:335-338 | the slicing loop over `range(0, n, chunk_size)` produces the windows |
| Chunking.GenerateImageChunks | train/trainer/feature_extractor.py:330-339 | `generate_image_chunks` as written, including its failures for zero workers and for no files |
| Chunking.ImageChunksPartition | train/trainer/feature_extractor.py:330-339 | with workers > 0 and files, the chunks partition the list in order, all full but the last, and there are `ceil(n / chunk_size)` ≤ workers of them |
| Chunking.NoFilesValueError | train/trainer/feature_extractor.py:333-336 | with no files the chunk size is 0 and `range(0, 0, 0)` raises `ValueError` |
| Chunking.DispatchFails | train/trainer/feature_extractor.py:237-241 | for any non-empty file list and positive thread count, `main` handing `chunks[i]` to every worker `i < threads` fails with `IndexError` iff `ceil(n / ceil(n / threads)) < threads` |
| Chunking.FourFilesThreeWorkers | train/trainer/feature_extractor.py:237-241 | four files on three workers give two chunks of two, and handing them out raises `IndexError` |
| Chunking.WindowsFitWorkers | train/trainer/feature_extractor.py:333-337 | the windows never outnumber the workers |
| Chunking.PartitionChunksSpec | train/trainer/feature_extractor.py:330-339 | the corrected partition: exactly one chunk per worker, each of at most `ceil(n / workers)` records, which give back the list when concatenated, and whose first chunks are those of `generate_image_chunks` |
| Chunking.PartitionChunksDispatch | train/trainer/feature_extractor.py:239-241 | every worker can be handed its chunk of the corrected partition |
| Progress.ProgressProcess | train/trainer/feature_extractor.py:385-402 | the printer loop ends as `Consume` says and takes exactly as many messages off the queue as `Consume` counts |
| Progress.ClosedCountsPrefix | train/trainer/feature_extractor.py:389-394 | on return the last message taken is the first `CLOSE`, and `completed` is the sum of the `PROGRESS` data before it; nothing after it is taken |
| Progress.ZeroCountRaises | train/trainer/feature_extractor.py:393-396 | a non-`CLOSE` message that leaves `completed` at 0 raises `ZeroDivisionError` in the estimate |
| Progress.ZeroTotalRaises | train/trainer/feature_extractor.py:393-398 | with a total of 0 the first non-`CLOSE` message raises `ZeroDivisionError` |
| Progress.WritersThenClose | train/trainer/feature_extractor.py:246-249 | positive `PROGRESS` messages followed by `CLOSE` are all taken, and the count is their total |
| Progress.PassedThrough | train/trainer/feature_extractor.py:194-208 | with a non-zero total every value is yielded, in order |
| Progress.PassedZeroTotal | train/trainer/feature_extractor.py:198-201 | with a zero total, the 20th value raises instead of being yielded |
| Progress.ProgressIteratorSpec | train/trainer/feature_extractor.py:190-208 | `progress_iterator` passes the values through unchanged, except that with a zero total it stops with an error after the first 19 |
| PartialFiles.NatToStringRoundTrip | train/trainer/feature_extractor.py:380 | `str(index)` reads back as the index |
| PartialFiles.PartialName | train/trainer/feature_extractor.py:380 | a partial file name starts with the prefix |
| PartialFiles.PartialNameRoundTrip | train/trainer/feature_extractor.py:380 | the worker index can be read back from its partial file name, so names of different workers differ |
| PartialFiles.Partials | train/trainer/feature_extractor.py:380 | the s-th file a walk lists is the partial file of the s-th worker in walk order |
| PartialFiles.PartialNotListed | train/trainer/feature_extractor.py:380 | a worker that has not run yet has no partial file in the directory |
| PartialFiles.WrittenAt | train/trainer/feature_extractor.py:380-382 | after the workers, each partial file holds its own worker's lines, whatever order they ran in, and the unprefixed files are as before |
| PartialFiles.MergedContentUnprefixed | train/trainer/feature_extractor.py:290 | files without the prefix contribute nothing to the merge |
| PartialFiles.MergedPartials | train/trainer/feature_extractor.py:285-294 | merging the partial files gives the workers' outputs concatenated in the order the walk lists their files |
| PartialFiles.KeepDropsPartials | train/trainer/feature_extractor.py:288-294 | the merge unlists exactly the partial files |
| PartialFiles.ListingAfterMerge | train/trainer/feature_extractor.py:285-294 | after the merge the listing is the one before the pass with the features file added |
| PartialFiles.FilesAfterMerge | train/trainer/feature_extractor.py:285-294 | after the merge the files are the ones before the pass with the features file written |
| PartialFiles.StorePartial | train/trainer/feature_extractor.py:380-382 | a worker's partial file is created, holds its lines and is listed after the files of the workers before it |
| PartialFiles.MergePartials | train/trainer/feature_extractor.py:250 | the merge turns the partial files into the features file holding the outputs in walk order, leaving the rest of the directory as before the pass |
| Chunking.Reorder | train/trainer/feature_extractor.py:288-289 | built one file at a time as the walk lists them, the result has one item per walk entry and its s-th item is the item of the s-th index the walk lists |
| Chunking.Identity | train/trainer/feature_extractor.py:239-241 | listing the workers by index is an order of them |
| Chunking.ReorderIdentity | train/trainer/feature_extractor.py:239-241 | walking the workers by index gives them back in chunk order |
| Chunking.SplitAtLast | train/trainer/feature_extractor.py:288-289 | removing the last worker from an order of the workers leaves an order of the others |
| Chunking.FlattenReorder | train/trainer/feature_extractor.py:288-294 | whatever order the walk lists the chunks in, their concatenation holds the same elements, each as often |
| Chunking.FlattenReorderLength | train/trainer/feature_extractor.py:288-294 | the concatenation in walk order has as many elements as in chunk order |
| Chunking.OrderStep | train/trainer/feature_extractor.py:239-241 | the worker run i-th has not run before, so its file is new |
| Pipeline.ExpandAllFlatten | train/trainer/feature_extractor.py:237-241 | concatenating the workers' outputs in chunk order gives the expansion of the whole record list |
| Pipeline.PassContentSpec | train/trainer/feature_extractor.py:236-250 | in any walk order every record lands in exactly one chunk and the features file holds exactly the lines of the expansion of all records, each as often; in worker-index order it is that expansion, in order |
| Pipeline.PassContentMerged | train/trainer/feature_extractor.py:250 | the features file of a pass is the workers' outputs concatenated in walk order |
| Pipeline.ProgressStep | train/trainer/feature_extractor.py:360-361 | after each worker, the reported count falls short of the records written by at most 19 per worker |
| Pipeline.RunWriters | train/trainer/feature_extractor.py:239-246 | the workers, run one at a time in walk order, write one partial file per chunk, holding that chunk's expansion, and list them in walk order; the queue holds `("PROGRESS", 20)` messages short of the record count by at most 19 per worker |
| Pipeline.CloseAndDrain | train/trainer/feature_extractor.py:248-249 | after the `CLOSE` the printer takes every message and returns with the reported count |
| Pipeline.RunPass | train/trainer/feature_extractor.py:236-250 | one pass: the features file holds the workers' expansions in walk order, as many lines of each record as its expansion has, nothing else changes, and the printer returns on `CLOSE` having counted all records but at most 19 per worker |
| Pipeline.PassRecords | train/trainer/feature_extractor.py:218-225 | the prediction records carry no label, the training records all carry one |
| Pipeline.OutputNamesUnprefixed | train/trainer/feature_extractor.py:214-216 | `labels.json`, `features.json` and `testfeatures.json` differ and carry neither partial-file prefix, so no step overwrites another's file and no merge deletes one |
| Pipeline.PassOver | train/trainer/feature_extractor.py:218-250 | a pass over a training or prediction image directory writes that directory's records' expansion in walk order, and only the features file is added |
| Pipeline.MainFilesSpec | train/trainer/feature_extractor.py:211-271 | the labels file is written only in training mode and the test features file only in test mode; each output holds its step's content; every other file is as before; no partial file remains |
| Pipeline.ExtractFeatures | train/trainer/feature_extractor.py:211-271 | `main`: the directory ends as `MainFiles` says (so as `MainFilesSpec` states), the listing gains the labels file (training), then the features files; test mode gives a test outcome iff it is on, and each printer returns on `CLOSE` having counted all records but at most 19 per worker |
| Extraction.PathCursor.constructor | train/trainer/feature_extractor.py:150-152 | the shared stream starts as the generator's records |
| Extraction.FeaturesDataWriter.constructor | train/trainer/feature_extractor.py:150-154 | the writer keeps its stream, extractor and batch size |
| Extraction.ProgressMessages | train/trainer/feature_extractor.py:360-361 | every message a worker puts is `("PROGRESS", 20)` |
| Enumeration.GlobPatternInjective | train/trainer/feature_extractor.py:127 | two label directories get the same glob pattern for an extension iff they are the same directory |
| Enumeration.TrainingRecords | train/trainer/feature_extractor.py:124-129 | every training record carries the id of one of the labels |
| Chunking.ImageChunks | train/trainer/feature_extractor.py:330-339 | `generate_image_chunks` fails with `ZeroDivisionError` iff there are no workers; with a positive worker count it fails iff there are no files; with a negative count `-d` it fails with `ValueError` iff there are fewer than `d` files, and otherwise returns no chunks |
| Chunking.CeilDivNegative | train/trainer/feature_extractor.py:333 | with a negative worker count `-d`, `ceil(n / -d)` is never positive and is zero iff `n < d` |
| Chunking.Windows | train/trainer/feature_extractor.py:336-337 | every slice is non-empty and at most the chunk size |
| Chunking.PartitionChunks | train/trainer/feature_extractor.py:239-241 | the corrected partition has exactly one chunk per worker |
| Progress.Consume | train/trainer/feature_extractor.py:385-402 | the printer takes at most the messages there are, takes none only when there are none, and takes all of them when it is still waiting |
| Progress.Passed | train/trainer/feature_extractor.py:194-208 | the iterator yields a prefix of its values, and all of them unless it raised |
| Progress.ProgressIterator | train/trainer/feature_extractor.py:190-208 | `progress_iterator` yields a prefix of the values, and all of them unless it raised |

## Left out

- Workers are assumed to succeed. The feature extractor and the model
  loading at lines 377 and 277 never fail here, so a failing worker is not
  modelled. In the source, an exception from `extract_data_for_path`
  (line 358) ends that worker's process with the lines already written kept
  by the `with` at line 353, and one raised before line 353 leaves no partial
  file at all. `main` (lines 246-250) joins the workers, puts `CLOSE` and
  merges without checking how they ended, so a truncated partial file is
  merged and a missing one is skipped without error, and the progress the
  worker never reported is missing from the count. The completeness ensures
  of `Pipeline.RunPass`, `Pipeline.PassOver` and `Pipeline.ExtractFeatures`
  (every record's full expansion lands in the features file) hold only for
  workers that finish.
- The feature extractor (`FeatureExtractor`, lines 43-110) is a parameter.
  TensorFlow decoding, rotation and gamma adjustment are not modelled,
  including that line 94 draws the gamma from `uniform(gamma_min, gamma_min)`.
- The ETA and percentage arithmetic, wall-clock time and stdout rendering in
  `ProgressProcess` and `progress_iterator` are floating point and are not
  modelled. Only the divisions that can raise (by `completed`, by `total`)
  are kept, as error outcomes.
- Processes, threads, the lock, and `_start_and_join_threads` are not
  modelled. The workers run one after another.
  - The queue holds their messages in the order they were put.
    `Messages.ReportedPermutation` shows that any interleaving gives the same
    count.
  - The shared cursor of the thread writer is single-threaded.
- Text serialisation is not modelled. A file is a sequence of JSON values, one
  per line; `json.dumps`, the trailing newline and reading text back are out.
  The labels file holds a single value.
- `os.walk` order is modelled as the directory listing in creation order, and
  the order in which a pass's partial files are created is the parameter
  `walk` of `Pipeline.RunPass`, `Pipeline.PassOver` and
  `Pipeline.ExtractFeatures`: any permutation of the worker indices. The real
  walk order depends on the file system, not on creation order; since `walk`
  is arbitrary, every order a walk can give is covered, but the model ties
  the workers' running order to it.
- Argument parsing (`_parse_arguments`, lines 306-320) is not modelled, so
  `nargs=1` turning `--output_dir` into a list is not either. `Arguments`
  holds the values `main` uses. Paths are names inside one directory.
- Python runtime quirks are not modelled:
  - `raise StopIteration()` inside the generators (lines 130, 142) becomes
    a `RuntimeError` under PEP 479. The generators are modelled as ending
    normally.
  - Line 232 uses `path_gen_test`, which is unbound when test mode is off.
    `ExtractFeatures` counts test files only in test mode.
  - `islice` on a re-iterable object restarts it (line 161). The cursor is
    modelled as a single stream.
  - Model-file loading (`ExtractionTask`, `ExtractionProcess` constructing the
    extractor) is not modelled.
- `Pipeline.RunPass` requires that no file with the pass's prefix already
  exists and that `threads > 0`. A leftover partial file from an earlier run
  would be merged too, which `Storage.MergeFiles` does describe.
- `Pipeline.ExtractFeatures` requires the same conditions as
  `Pipeline.RunPass` for both prefixes.
- `Pipeline.RunPass` uses the corrected partition
  (`Chunking.PartitionChunks`), not `generate_image_chunks` as written, which
  can fail (see Findings).
- `Progress.ProgressProcess` returns `Waiting` when the queue runs dry before a
  `CLOSE`. The real `get` blocks forever.
- `main` hands `chunks[i]` to each of the `threads` workers (lines 239-241),
  so it needs one chunk per worker; `generate_image_chunks` slices windows of
  `ceil(n / threads)` records and can return fewer (see Findings).
  `Chunking.GenerateImageChunks` models it as written.
- `_merge_files` (lines 285-294) walks the output directory and appends every
  listed file whose name starts with the prefix, in listing order, then
  removes it. `Storage.MergeFiles` models that, and
  `PartialFiles.MergedPartials` gives the result for partial files listed in
  any order `walk`.
- Subdirectories of the output directory are not modelled. `os.walk`
  (line 288) also lists the files of subdirectories, but line 291 joins each
  name with the output directory itself, so a prefixed file in a
  subdirectory would be looked up in the wrong place; the model's directory
  is flat.
- `Pipeline.PassOver`: `main` raises `ValueError` on an image directory with
  no images (`range(0, 0, 0)`, line 336) and `IndexError` when
  `generate_image_chunks` returns fewer chunks than threads (lines 239-241).
  Those outcomes are outside its contract, because it uses the corrected
  partition `Chunking.PartitionChunks`; `Chunking.NoFilesValueError` and
  `Chunking.DispatchFails` state them for the code as written.
- `Pipeline.ExtractFeatures`: the same `ValueError` and `IndexError` of `main`
  are outside its contract, for the same reason, in both passes.
- `Pipeline.ExtractFeatures` takes the output file names and partial-file
  prefixes as a parameter `names` satisfying `Pipeline.Separate`; `main` uses
  `Pipeline.MainNames` (lines 214-216, 240, 258), which
  `Pipeline.OutputNamesUnprefixed` shows qualify. The `os.path.join` with the
  output directory is left out: paths are names inside one directory.
- Logging is not modelled: the `logger.info` calls (lines 227, 271, 286, 298)
  and the `print` at the start of `ExtractionProcess` (line 375) write only to
  the log and stdout.
- Everything outside `train/trainer/feature_extractor.py` (web app, robot arm,
  speech app) is not part of this model.

## Findings

| source | as written | input that shows it | evidently intended | confidence | as-written member | corrected member |
|---|---|---|---|---|---|---|
| train/trainer/feature_extractor.py:333-337 | chunk size `ceil(n / threads)` can give fewer than `threads` chunks, and `main` (lines 239-241) then indexes `chunks[i]` for every `i < threads` | 4 files, 3 threads: chunk size 2, chunks `[f0,f1]`, `[f2,f3]`; `chunks[2]` raises `IndexError` | one chunk per worker, possibly empty | not executed | Chunking.FourFilesThreeWorkers | Chunking.PartitionChunksDispatch |
| train/trainer/feature_extractor.py:333-336 | with no files the chunk size is 0 and `range(0, 0, 0)` raises `ValueError` | an image directory with no images | no files give empty chunks | not executed | Chunking.NoFilesValueError | Chunking.PartitionChunksSpec |

=== FILE: chunking.dfy ===
/**
 * Splitting the image list into one contiguous chunk per worker:
 * `generate_image_chunks` as written, and the partition that `main` relies on.
 */
module Chunking {
  import opened Wrappers

  /** The Python exceptions `generate_image_chunks` and `main` can raise. */
  datatype ChunkError = ZeroDivisionError | ValueError | IndexError

  /**
   * `math.ceil(n / float(d))` on exact rationals: the least `q` with `q * d >= n`
   * when `d > 0`, the least `q` with `q * d <= n` when `d < 0`.
   */
  function CeilDiv(n: nat, d: int): (q: int)
    requires d != 0
    ensures d > 0 ==> q * d >= n && (q - 1) * d < n
    ensures d < 0 ==> q * d <= n && (q - 1) * d > n
  {
    if d > 0 then CeilDivPositive(n, d) else -(n / -d)
  }

  /** With a negative divisor the ceiling is zero iff n is below the divisor's magnitude, and negative otherwise. */
  lemma CeilDivNegative(n: nat, d: int)
    requires d != 0
    ensures d < 0 ==> (CeilDiv(n, d) == 0 <==> n < -d)
    ensures d < 0 ==> CeilDiv(n, d) <= 0
  {
  }

  function CeilDivPositive(n: nat, d: nat): (q: nat)
    requires d > 0
    ensures q * d >= n && (q - 1) * d < n
  {
    CeilDivBounds(n, d);
    (n + d - 1) / d
  }

  lemma CeilDivBounds(n: nat, d: nat)
    requires d > 0
    ensures (n + d - 1) / d * d >= n && ((n + d - 1) / d - 1) * d < n
  {
    var q, r := (n + d - 1) / d, (n + d - 1) % d;
    assert q * d + r == n + d - 1;
    assert (q - 1) * d == q * d - d;
  }

  /** `a < b` scales to `a * d <= (b - 1) * d` for a non-negative factor. */
  lemma MulOrder(a: int, b: int, d: nat)
    ensures a < b ==> a * d <= (b - 1) * d
  {
    if a < b {
      var k: nat := b - 1 - a;
      NonNegativeProduct(k, d);
      assert (b - 1) * d == a * d + k * d;
    }
  }

  lemma {:induction false} NonNegativeProduct(k: nat, d: nat)
    ensures k * d >= 0
  {
    if k > 0 {
      NonNegativeProduct(k - 1, d);
      assert k * d == (k - 1) * d + d;
    }
  }

  /** No multiple of `d` below the ceiling reaches `n`. */
  lemma CeilDivLeast(n: nat, d: nat, q: int)
    requires d > 0 && q * d >= n
    ensures CeilDiv(n, d) <= q
  {
    MulOrder(q, CeilDiv(n, d), d);
  }

  /** The ceiling is the only `q` with `(q - 1) * d < n <= q * d`. */
  lemma CeilDivUnique(n: nat, d: nat, q: int)
    requires d > 0 && q * d >= n && (q - 1) * d < n
    ensures CeilDiv(n, d) == q
  {
    CeilDivLeast(n, d, q);
    MulOrder(CeilDiv(n, d), q, d);
  }

  /** One more full window's worth of elements takes one more window. */
  lemma CeilDivStep(m: nat, d: nat)
    requires d > 0
    ensures CeilDiv(m + d, d) == CeilDiv(m, d) + 1
  {
    var c := CeilDiv(m, d);
    assert (c + 1) * d == c * d + d;
    assert (c + 1 - 1) * d == c * d;
    assert (c - 1) * d < m;
    CeilDivUnique(m + d, d, c + 1);
  }

  /** The chunks concatenated in order. */
  function Flatten<T>(chunks: seq<seq<T>>): seq<T>
  {
    if chunks == [] then [] else chunks[0] + Flatten(chunks[1..])
  }

  lemma {:induction false} FlattenAppend<T>(a: seq<seq<T>>, b: seq<seq<T>>)
    ensures Flatten(a + b) == Flatten(a) + Flatten(b)
  {
    if a != [] {
      assert (a + b)[0] == a[0] && (a + b)[1..] == a[1..] + b;
      FlattenAppend(a[1..], b);
      calc {
        Flatten(a + b);
        a[0] + Flatten(a[1..] + b);
        a[0] + (Flatten(a[1..]) + Flatten(b));
        (a[0] + Flatten(a[1..])) + Flatten(b);
      }
    } else {
      assert a + b == b;
    }
  }

  /** The slices `s[k*size : k*size + size]` for every start `k*size < |s|`, the last one clamped. */
  function Windows<T>(s: seq<T>, size: nat): (w: seq<seq<T>>)
    requires size > 0
    ensures forall i :: 0 <= i < |w| ==> 0 < |w[i]| <= size
    decreases |s|
  {
    if s == [] then []
    else if |s| <= size then [s]
    else [s[..size]] + Windows(s[size..], size)
  }

  /** Concatenating the windows gives back the list: nothing dropped, duplicated or reordered. */
  lemma {:induction false} WindowsFlatten<T>(s: seq<T>, size: nat)
    requires size > 0
    ensures Flatten(Windows(s, size)) == s
    decreases |s|
  {
    if |s| > size {
      var w := Windows(s, size);
      WindowsFlatten(s[size..], size);
      assert w[1..] == Windows(s[size..], size);
      assert s[..size] + s[size..] == s;
    } else if s != [] {
      assert Windows(s, size)[1..] == [];
    }
  }

  /** Every window is full but the last, which is non-empty and no longer. */
  lemma {:induction false} WindowsSizes<T>(s: seq<T>, size: nat)
    requires size > 0
    ensures forall i :: 0 <= i < |Windows(s, size)| - 1 ==> |Windows(s, size)[i]| == size
    ensures forall i :: 0 <= i < |Windows(s, size)| ==> 0 < |Windows(s, size)[i]| <= size
    decreases |s|
  {
    if |s| > size {
      WindowsSizes(s[size..], size);
      var w := Windows(s, size);
      assert w == [s[..size]] + Windows(s[size..], size);
      forall i | 0 < i < |w|
        ensures w[i] == Windows(s[size..], size)[i - 1]
      {
      }
    }
  }

  /** There are `ceil(|s| / size)` windows. */
  lemma {:induction false} WindowsCount<T>(s: seq<T>, size: nat)
    requires size > 0
    ensures |Windows(s, size)| == CeilDiv(|s|, size)
    decreases |s|
  {
    if s == [] {
      CeilDivUnique(0, size, 0);
    } else if |s| <= size {
      CeilDivUnique(|s|, size, 1);
    } else {
      WindowsCount(s[size..], size);
      CeilDivStep(|s| - size, size);
    }
  }

  // ---------------------------------------------------------------------------
  // `generate_image_chunks` as written.
  // ---------------------------------------------------------------------------

  /**
   * The outcome of `generate_image_chunks(all, splitInto)`: dividing by a zero worker
   * count fails, a chunk size of zero (no files at all) makes `range` fail, a negative
   * chunk size gives no chunks, a positive one the windows of that size.
   */
  function ImageChunks<T>(all: seq<T>, splitInto: int): (r: Result<seq<seq<T>>, ChunkError>)
    ensures r == Err(ZeroDivisionError) <==> splitInto == 0
    ensures splitInto > 0 ==> (r.Err? <==> all == [])
    ensures splitInto < 0 ==> (r == Err(ValueError) <==> |all| < -splitInto)
    ensures splitInto < 0 && |all| >= -splitInto ==> r == Ok([])
  {
    if splitInto == 0 then Err(ZeroDivisionError)
    else
      var size := CeilDiv(|all|, splitInto);
      CeilDivNegative(|all|, splitInto);
      if size == 0 then Err(ValueError)
      else if size < 0 then Ok([])
      else Ok(Windows(all, size))
  }

  /** The loop of `generate_image_chunks`: one slice per step of `range(0, n, size)`. */
  method SliceWindows<T>(all: seq<T>, size: nat) returns (chunks: seq<seq<T>>)
    requires size > 0
    ensures chunks == Windows(all, size)
  {
    var n := |all|;
    chunks := [];
    var start := 0;
    while start < n
      invariant 0 <= start <= n
      invariant chunks + Windows(all[start..], size) == Windows(all, size)
      decreases n - start
    {
      var end := if start + size < n then start + size else n;
      var rest := all[start..];
      if end < n {
        assert rest[..size] == all[start..end] && rest[size..] == all[end..];
      } else {
        assert all[end..] == [] && rest == all[start..end];
      }
      chunks := chunks + [all[start..end]];
      start := end;
    }
    assert all[start..] == [];
  }

  /**
   * `generate_image_chunks`: the chunk size from the worker count, then the slices.
   * The executable form of `ImageChunks`, whose slicing loop is proved to give `Windows`.
   */
  method GenerateImageChunks<T>(all: seq<T>, splitInto: int) returns (r: Result<seq<seq<T>>, ChunkError>)
    ensures r == ImageChunks(all, splitInto)
  {
    if splitInto == 0 {
      return Err(ZeroDivisionError);
    }
    var chunkSize := CeilDiv(|all|, splitInto);
    if chunkSize == 0 {
      return Err(ValueError);
    } else if chunkSize < 0 {
      return Ok([]);
    }
    var chunks := SliceWindows(all, chunkSize);
    return Ok(chunks);
  }

  /**
   * With at least one worker and at least one file the chunks partition the list
   * in order, all full but the last, and there are `ceil(n / chunk_size)` of them,
   * never more than the workers.
   */
  lemma ImageChunksPartition<T>(all: seq<T>, splitInto: int)
    requires splitInto > 0 && all != []
    ensures ImageChunks(all, splitInto).Ok?
    ensures var size := CeilDiv(|all|, splitInto);
            var chunks := ImageChunks(all, splitInto).value;
            size > 0
            && Flatten(chunks) == all
            && |chunks| == CeilDiv(|all|, size) <= splitInto
            && (forall i :: 0 <= i < |chunks| - 1 ==> |chunks[i]| == size)
            && 0 < |chunks[|chunks| - 1]| <= size
  {
    var size := CeilDiv(|all|, splitInto);
    WindowsFlatten(all, size);
    WindowsSizes(all, size);
    WindowsCount(all, size);
    assert splitInto * size >= |all|;
    CeilDivLeast(|all|, size, splitInto);
  }

  /** No files: the chunk size is zero and `range(0, 0, 0)` raises `ValueError`, whatever the worker count. */
  lemma NoFilesValueError<T>(splitInto: int)
    requires splitInto != 0
    ensures ImageChunks<T>([], splitInto) == Err(ValueError)
  {
  }

  /** `main` hands chunk `i` to worker `i` for every `i < threads`. */
  function WorkerChunks<T>(chunks: seq<seq<T>>, threads: int): Result<seq<seq<T>>, ChunkError>
  {
    if |chunks| < threads then Err(IndexError)
    else if threads < 0 then Ok([])
    else Ok(chunks[..threads])
  }

  /**
   * For any files and workers, `main` fails with `IndexError` exactly when the windows
   * of size `ceil(n / threads)` number fewer than the threads.
   */
  lemma DispatchFails<T>(all: seq<T>, threads: int)
    requires threads > 0 && all != []
    ensures WorkerChunks(ImageChunks(all, threads).value, threads) == Err(IndexError)
            <==> CeilDiv(|all|, CeilDiv(|all|, threads)) < threads
  {
    ImageChunksPartition(all, threads);
  }

  /** Four files on three workers: chunks of two give only two chunks, and worker 2 has none. */
  lemma FourFilesThreeWorkers(all: seq<int>)
    requires |all| == 4
    ensures CeilDiv(4, 3) == 2
    ensures ImageChunks(all, 3) == Ok([all[..2], all[2..]])
    ensures WorkerChunks(ImageChunks(all, 3).value, 3) == Err(IndexError)
  {
    CeilDivUnique(4, 3, 2);
    assert Windows(all[2..], 2) == [all[2..]];
    assert Windows(all, 2) == [all[..2]] + Windows(all[2..], 2) == [all[..2], all[2..]];
    assert ImageChunks(all, 3) == Ok(Windows(all, CeilDiv(4, 3)));
  }

  // ---------------------------------------------------------------------------
  // The partition `main` needs: exactly one chunk per worker.
  // ---------------------------------------------------------------------------

  function Empties<T>(count: nat): (r: seq<seq<T>>)
    ensures |r| == count && Flatten(r) == []
    ensures forall i :: 0 <= i < count ==> r[i] == []
  {
    if count == 0 then [] else
      var r := [[]] + Empties(count - 1);
      assert r[1..] == Empties(count - 1);
      r
  }

  /** The windows `main` can hand out: never more than the workers. */
  lemma WindowsFitWorkers<T>(all: seq<T>, workers: nat)
    requires workers > 0 && all != []
    ensures |Windows(all, CeilDiv(|all|, workers))| <= workers
  {
    var size := CeilDiv(|all|, workers);
    WindowsCount(all, size);
    assert workers * size >= |all|;
    CeilDivLeast(|all|, size, workers);
  }

  /**
   * The windows of size `ceil(n / workers)` (at least one), padded with empty chunks
   * so that every worker gets a chunk of its own.
   */
  function PartitionChunks<T>(all: seq<T>, workers: nat): (chunks: seq<seq<T>>)
    requires workers > 0
    ensures |chunks| == workers
  {
    if all == [] then Empties(workers)
    else
      var windows := Windows(all, CeilDiv(|all|, workers));
      WindowsFitWorkers(all, workers);
      windows + Empties(workers - |windows|)
  }

  /**
   * One chunk per worker, at most `ceil(n / workers)` records each, which concatenated
   * give back the list; the chunks of `generate_image_chunks` come first.
   */
  lemma PartitionChunksSpec<T>(all: seq<T>, workers: nat)
    requires workers > 0
    ensures |PartitionChunks(all, workers)| == workers
    ensures Flatten(PartitionChunks(all, workers)) == all
    ensures forall i :: 0 <= i < workers ==> |PartitionChunks(all, workers)[i]| <= CeilDiv(|all|, workers)
    ensures all != [] ==> (ImageChunks(all, workers).Ok?
              && PartitionChunks(all, workers)[..|ImageChunks(all, workers).value|] == ImageChunks(all, workers).value)
  {
    if all != [] {
      var size := CeilDiv(|all|, workers);
      var windows := Windows(all, size);
      WindowsFitWorkers(all, workers);
      WindowsSizes(all, size);
      WindowsFlatten(all, size);
      var pad := Empties<T>(workers - |windows|);
      FlattenAppend(windows, pad);
      assert PartitionChunks(all, workers) == windows + pad;
      forall i | 0 <= i < workers
        ensures |(windows + pad)[i]| <= size
      {
        if i >= |windows| {
          assert (windows + pad)[i] == pad[i - |windows|];
        }
      }
      assert (windows + pad)[..|windows|] == windows;
    }
  }

  /** Every worker can be handed its chunk: `main`'s indexing never fails on the partition. */
  lemma PartitionChunksDispatch<T>(all: seq<T>, workers: nat)
    requires workers > 0
    ensures WorkerChunks(PartitionChunks(all, workers), workers) == Ok(PartitionChunks(all, workers))
  {
    PartitionChunksSpec(all, workers);
    assert PartitionChunks(all, workers)[..workers] == PartitionChunks(all, workers);
  }

  // ---------------------------------------------------------------------------
  // The chunks in the order a directory walk lists their partial files.
  // ---------------------------------------------------------------------------

  /** `walk` names each of the workers `0 .. count - 1` exactly once. */
  predicate IsOrder(walk: seq<nat>, count: nat) {
    |walk| == count
    && (forall s :: 0 <= s < count ==> walk[s] < count)
    && (forall s, t :: 0 <= s < t < count ==> walk[s] != walk[t])
    && (forall j :: 0 <= j < count ==> j in walk)
  }

  /** The items of `xs` in the order `walk` names them. */
  function Reorder<T>(xs: seq<T>, walk: seq<nat>): (r: seq<T>)
    requires forall s :: 0 <= s < |walk| ==> walk[s] < |xs|
    ensures |r| == |walk|
    ensures forall s :: 0 <= s < |walk| ==> r[s] == xs[walk[s]]
  {
    if walk == [] then [] else Reorder(xs, walk[..|walk| - 1]) + [xs[walk[|walk| - 1]]]
  }

  /** The workers in index order. */
  function Identity(count: nat): (walk: seq<nat>)
    ensures IsOrder(walk, count)
  {
    var walk := seq(count, s => s);
    assert forall j :: 0 <= j < count ==> walk[j] == j && j in walk;
    walk
  }

  lemma ReorderIdentity<T>(xs: seq<T>)
    ensures Reorder(xs, Identity(|xs|)) == xs
  {
  }

  /** The walk around the position of the last index `count`: the others still form an order. */
  lemma SplitAtLast(walk: seq<nat>, count: nat) returns (head: seq<nat>, tail: seq<nat>)
    requires IsOrder(walk, count + 1)
    ensures walk == head + [count] + tail
    ensures forall s :: 0 <= s < |head| ==> head[s] < count
    ensures forall s :: 0 <= s < |tail| ==> tail[s] < count
    ensures IsOrder(head + tail, count)
  {
    assert count in walk;
    var p :| 0 <= p < |walk| && walk[p] == count;
    head, tail := walk[..p], walk[p + 1..];
    assert walk == head + [count] + tail;
    OthersDistinct(head, tail, count);
    OthersCovered(head, tail, count);
  }

  lemma OthersDistinct(head: seq<nat>, tail: seq<nat>, count: nat)
    requires IsOrder(head + [count] + tail, count + 1)
    ensures forall s :: 0 <= s < |head| ==> head[s] < count
    ensures forall s :: 0 <= s < |tail| ==> tail[s] < count
    ensures forall s, t :: 0 <= s < t < count ==> (head + tail)[s] != (head + tail)[t]
  {
    var walk, rest, p := head + [count] + tail, head + tail, |head|;
    assert walk[p] == count;
    forall s | 0 <= s < |head|
      ensures head[s] < count
    {
      assert head[s] == walk[s] != walk[p];
    }
    forall s | 0 <= s < |tail|
      ensures tail[s] < count
    {
      assert tail[s] == walk[p + 1 + s] != walk[p];
    }
    forall s, t | 0 <= s < t < count
      ensures rest[s] != rest[t]
    {
      var s', t' := if s < p then s else s + 1, if t < p then t else t + 1;
      assert rest[s] == walk[s'] && rest[t] == walk[t'] && s' < t';
    }
  }

  lemma OthersCovered(head: seq<nat>, tail: seq<nat>, count: nat)
    requires IsOrder(head + [count] + tail, count + 1)
    ensures forall j :: 0 <= j < count ==> j in head + tail
  {
    var walk, p := head + [count] + tail, |head|;
    forall j | 0 <= j < count
      ensures j in head + tail
    {
      assert j in walk;
      var q :| 0 <= q < |walk| && walk[q] == j;
      assert q != p;
      if q < p {
        assert head[q] == j;
      } else {
        assert tail[q - p - 1] == j;
      }
    }
  }

  lemma ReorderAppend<T>(xs: seq<T>, a: seq<nat>, b: seq<nat>)
    requires forall s :: 0 <= s < |a| ==> a[s] < |xs|
    requires forall s :: 0 <= s < |b| ==> b[s] < |xs|
    ensures Reorder(xs, a + b) == Reorder(xs, a) + Reorder(xs, b)
  {
    assert forall s :: 0 <= s < |a + b| ==> (a + b)[s] == if s < |a| then a[s] else b[s - |a|];
  }

  lemma ReorderPrefix<T>(xs: seq<T>, n: nat, walk: seq<nat>)
    requires n <= |xs| && forall s :: 0 <= s < |walk| ==> walk[s] < n
    ensures Reorder(xs[..n], walk) == Reorder(xs, walk)
  {
  }

  /** Taking the last chunk out of a walk order: its items leave the concatenation, the rest stay. */
  lemma FlattenTakeLast<T>(xs: seq<seq<T>>, head: seq<nat>, tail: seq<nat>, n: nat)
    requires n + 1 == |xs|
    requires forall s :: 0 <= s < |head| ==> head[s] < n
    requires forall s :: 0 <= s < |tail| ==> tail[s] < n
    ensures multiset(Flatten(Reorder(xs, head + [n] + tail)))
            == multiset(Flatten(Reorder(xs[..n], head + tail))) + multiset(xs[n])
  {
    ReorderSplice(xs, head, tail, n);
    ReorderPrefix(xs, n, head + tail);
    ReorderAppend(xs, head, tail);
    FlattenTakeOut(Reorder(xs, head), xs[n], Reorder(xs, tail));
  }

  /** A walk with `n` between two parts reorders into the two parts' items around item `n`. */
  lemma ReorderSplice<T>(xs: seq<T>, head: seq<nat>, tail: seq<nat>, n: nat)
    requires n < |xs|
    requires forall s :: 0 <= s < |head| ==> head[s] < n
    requires forall s :: 0 <= s < |tail| ==> tail[s] < n
    ensures Reorder(xs, head + [n] + tail) == Reorder(xs, head) + [xs[n]] + Reorder(xs, tail)
  {
    ReorderAppend(xs, head + [n], tail);
    ReorderAppend(xs, head, [n]);
  }

  /** Taking one chunk out of a list of chunks takes its items out of the concatenation. */
  lemma FlattenTakeOut<T>(before: seq<seq<T>>, x: seq<T>, after: seq<seq<T>>)
    ensures multiset(Flatten(before + [x] + after)) == multiset(Flatten(before + after)) + multiset(x)
  {
    FlattenAppend(before + [x], after);
    FlattenAppend(before, [x]);
    FlattenAppend(before, after);
    assert Flatten([x]) == x + Flatten<T>([]);
  }

  /**
   * Concatenating the chunks in any walk order gives the same items as in index
   * order: only their order differs.
   */
  lemma {:induction false} FlattenReorder<T>(xs: seq<seq<T>>, walk: seq<nat>)
    requires IsOrder(walk, |xs|)
    ensures multiset(Flatten(Reorder(xs, walk))) == multiset(Flatten(xs))
    decreases |xs|
  {
    if xs != [] {
      var n := |xs| - 1;
      var head, tail := SplitAtLast(walk, n);
      FlattenReorder(xs[..n], head + tail);
      FlattenTakeLast(xs, head, tail, n);
      assert xs == xs[..n] + [xs[n]];
      FlattenAppend(xs[..n], [xs[n]]);
      assert Flatten([xs[n]]) == xs[n] + Flatten<T>([]);
    }
  }

  /** Reordering the chunks keeps the number of elements. */
  lemma FlattenReorderLength<T>(xs: seq<seq<T>>, walk: seq<nat>)
    requires IsOrder(walk, |xs|)
    ensures |Flatten(Reorder(xs, walk))| == |Flatten(xs)|
  {
    FlattenReorder(xs, walk);
    assert |multiset(Flatten(Reorder(xs, walk)))| == |multiset(Flatten(xs))|;
  }

  /** The `i`-th entry of an order is not among the ones before it. */
  lemma OrderStep(walk: seq<nat>, count: nat, i: nat)
    requires IsOrder(walk, count) && i < count
    ensures walk[i] !in walk[..i]
    ensures walk[..i] + [walk[i]] == walk[..i + 1]
  {
    forall s | 0 <= s < i
      ensures walk[..i][s] != walk[i]
    {
    }
  }
}

=== FILE: enumeration.dfy ===
/**
 * Where the image records come from: the label directories under the image
 * directory (sorted by name, the position of a label being its id), the images
 * globbed in each of them, and the labels document that maps ids back to names.
 */
module Enumeration {
  import opened Wrappers
  import opened Json
  import opened Storage
  import opened Extraction

  /**
   * The image tree as the file library reports it: the entries of a directory,
   * whether a path is a directory, and the paths a glob pattern matches.
   */
  datatype ImageStore = ImageStore(
    listDirectory: string -> seq<string>,
    isDirectory: string -> bool,
    glob: string -> seq<string>)

  /** `os.path.join(a, b)` on POSIX paths. */
  function JoinPath(a: string, b: string): (r: string)
    ensures |b| > 0 && b[0] == '/' ==> r == b
    ensures (|b| == 0 || b[0] != '/') ==> |r| >= |a| + |b| && r[..|a|] == a && r[|r| - |b|..] == b
  {
    if |b| > 0 && b[0] == '/' then b
    else if |a| == 0 || a[|a| - 1] == '/' then a + b
    else a + "/" + b
  }

  // The glob pattern `<dir>/*.<extension>`: every file of `dir` itself with that extension.
  function GlobPattern(dir: string, extension: string): string
  {
    dir + "/*." + extension
  }

  /** Different image directories are globbed with different patterns. */
  lemma GlobPatternInjective(dir1: string, dir2: string, extension: string)
    ensures GlobPattern(dir1, extension) == GlobPattern(dir2, extension) <==> dir1 == dir2
  {
    if GlobPattern(dir1, extension) == GlobPattern(dir2, extension) {
      assert GlobPattern(dir1, extension)[..|dir1|] == dir1;
      assert GlobPattern(dir2, extension)[..|dir2|] == dir2;
    }
  }

  // ---------------------------------------------------------------------------
  // The order of `sorted` on strings: lexicographic on code points.
  // ---------------------------------------------------------------------------

  /** `a <= b` in code-point lexicographic order. */
  predicate NoLater(a: string, b: string)
    decreases |a|
  {
    |a| == 0 || (|b| > 0 && (a[0] < b[0] || (a[0] == b[0] && NoLater(a[1..], b[1..]))))
  }

  lemma {:induction false} NoLaterTotal(a: string, b: string)
    ensures NoLater(a, b) || NoLater(b, a)
    decreases |a|
  {
    if |a| > 0 && |b| > 0 && a[0] == b[0] {
      NoLaterTotal(a[1..], b[1..]);
    }
  }

  lemma {:induction false} NoLaterTransitive(a: string, b: string, c: string)
    requires NoLater(a, b) && NoLater(b, c)
    ensures NoLater(a, c)
    decreases |a|
  {
    if |a| > 0 && a[0] == b[0] && b[0] == c[0] {
      NoLaterTransitive(a[1..], b[1..], c[1..]);
    }
  }

  lemma {:induction false} NoLaterAntisymmetric(a: string, b: string)
    requires NoLater(a, b) && NoLater(b, a)
    ensures a == b
    decreases |a|
  {
    if |a| > 0 {
      NoLaterAntisymmetric(a[1..], b[1..]);
      assert a == [a[0]] + a[1..] && b == [b[0]] + b[1..];
    }
  }

  predicate Ascending(s: seq<string>)
  {
    forall i, j :: 0 <= i < j < |s| ==> NoLater(s[i], s[j])
  }

  /** `x` inserted before the first element it does not come after. */
  function Insert(x: string, s: seq<string>): (r: seq<string>)
    ensures multiset(r) == multiset(s) + multiset{x}
  {
    if s == [] then [x]
    else if NoLater(x, s[0]) then [x] + s
    else
      assert s == [s[0]] + s[1..];
      [s[0]] + Insert(x, s[1..])
  }

  lemma {:induction false} InsertAscending(x: string, s: seq<string>)
    requires Ascending(s)
    ensures Ascending(Insert(x, s))
  {
    if s == [] {
    } else if NoLater(x, s[0]) {
      forall j | 0 < j < |s|
        ensures NoLater(x, s[j])
      {
        NoLaterTransitive(x, s[0], s[j]);
      }
    } else {
      var tail := s[1..];
      InsertAscending(x, tail);
      NoLaterTotal(x, s[0]);
      var rest := Insert(x, tail);
      forall y | y in rest
        ensures NoLater(s[0], y)
      {
        assert y in multiset(rest);
        if y != x {
          assert y in multiset(tail);
          var j :| 0 <= j < |tail| && tail[j] == y;
          assert s[j + 1] == y;
        }
      }
    }
  }

  /** Python's `sorted` on a list of strings, as an insertion sort. */
  function SortStrings(s: seq<string>): (r: seq<string>)
    ensures multiset(r) == multiset(s)
  {
    if s == [] then []
    else
      assert s == [s[0]] + s[1..];
      Insert(s[0], SortStrings(s[1..]))
  }

  lemma {:induction false} SortStringsAscending(s: seq<string>)
    ensures Ascending(SortStrings(s))
  {
    if s != [] {
      SortStringsAscending(s[1..]);
      InsertAscending(s[0], SortStrings(s[1..]));
    }
  }

  // ---------------------------------------------------------------------------
  // Labels.
  // ---------------------------------------------------------------------------

  /** The entries of `imageDir` that are directories, in listing order. */
  function Subdirectories(imageDir: string, entries: seq<string>, store: ImageStore): (r: seq<string>)
    ensures forall e :: e in r <==> e in entries && store.isDirectory(imageDir + "/" + e)
    ensures Distinct(entries) ==> Distinct(r)
  {
    if entries == [] then []
    else
      var rest := Subdirectories(imageDir, entries[1..], store);
      assert forall e :: e in entries <==> e == entries[0] || e in entries[1..];
      assert Distinct(entries) ==> Distinct(entries[1..]) && entries[0] !in entries[1..];
      if store.isDirectory(imageDir + "/" + entries[0]) then [entries[0]] + rest else rest
  }

  /** `get_labels`: the sub-directories of the image directory, sorted by name. */
  function GetLabels(imageDir: string, store: ImageStore): seq<string>
  {
    SortStrings(Subdirectories(imageDir, store.listDirectory(imageDir), store))
  }

  /** The labels are exactly the sub-directories, in ascending order. */
  lemma GetLabelsSpec(imageDir: string, store: ImageStore)
    ensures Ascending(GetLabels(imageDir, store))
    ensures forall l :: l in GetLabels(imageDir, store) <==>
              l in store.listDirectory(imageDir) && store.isDirectory(imageDir + "/" + l)
  {
    var subs := Subdirectories(imageDir, store.listDirectory(imageDir), store);
    SortStringsAscending(subs);
    forall l
      ensures l in GetLabels(imageDir, store) <==> l in subs
    {
      assert l in GetLabels(imageDir, store) <==> l in multiset(GetLabels(imageDir, store));
      assert l in subs <==> l in multiset(subs);
    }
  }

  /** Sorting keeps a duplicate-free list duplicate-free. */
  lemma SortStringsDistinct(s: seq<string>)
    requires Distinct(s)
    ensures Distinct(SortStrings(s))
  {
    var r := SortStrings(s);
    forall i, j | 0 <= i < j < |r|
      ensures r[i] != r[j]
    {
      MultisetTwice(r, i, j);
      DistinctOnce(s, r[i]);
    }
  }

  lemma MultisetTwice(r: seq<string>, i: nat, j: nat)
    requires i < j < |r|
    ensures r[i] == r[j] ==> multiset(r)[r[i]] >= 2
  {
    assert r == r[..i] + [r[i]] + r[i + 1..j] + [r[j]] + r[j + 1..];
  }

  lemma {:induction false} DistinctOnce(s: seq<string>, x: string)
    requires Distinct(s)
    ensures multiset(s)[x] <= 1
  {
    if s != [] {
      var tail := s[1..];
      assert Distinct(tail);
      DistinctOnce(tail, x);
      assert s == [s[0]] + tail;
      if s[0] == x {
        forall k | 0 <= k < |tail|
          ensures tail[k] != x
        {
          assert tail[k] == s[k + 1];
        }
        assert multiset(tail)[x] == 0;
      }
    }
  }

  /**
   * With a duplicate-free directory listing, no two ids name the same label:
   * the labels document maps ids to label directories one to one.
   */
  lemma GetLabelsDistinct(imageDir: string, store: ImageStore)
    requires Distinct(store.listDirectory(imageDir))
    ensures Distinct(GetLabels(imageDir, store))
  {
    SortStringsDistinct(Subdirectories(imageDir, store.listDirectory(imageDir), store));
  }

  // ---------------------------------------------------------------------------
  // Training and prediction records.
  // ---------------------------------------------------------------------------

  // The images of one label directory: the glob `<imageDir>/<label>/*.<extension>`.
  function LabelPaths(imageDir: string, extension: string, labelName: string, store: ImageStore): seq<string>
  {
    store.glob(GlobPattern(JoinPath(imageDir, labelName), extension))
  }

  /** Every path paired with the same label. */
  function Tag(paths: seq<string>, labelId: Option<nat>): (r: seq<ImageRecord>)
    ensures |r| == |paths|
    ensures forall i :: 0 <= i < |paths| ==> r[i] == ImageRecord(paths[i], labelId)
  {
    if paths == [] then []
    else Tag(paths[..|paths| - 1], labelId) + [ImageRecord(paths[|paths| - 1], labelId)]
  }

  /** The records yielded for the first `n` labels: label by label, each label's images in glob order. */
  function LabelRecords(imageDir: string, extension: string, labels: seq<string>, store: ImageStore, n: nat)
    : seq<ImageRecord>
    requires n <= |labels|
  {
    if n == 0 then []
    else LabelRecords(imageDir, extension, labels, store, n - 1)
         + Tag(LabelPaths(imageDir, extension, labels[n - 1], store), Some(n - 1))
  }

  /** Everything `ImagePathGeneratorForTraining` yields. */
  function TrainingRecords(imageDir: string, extension: string, store: ImageStore): (records: seq<ImageRecord>)
    ensures forall i :: 0 <= i < |records| ==>
              records[i].labelId.Some? && records[i].labelId.value < |GetLabels(imageDir, store)|
  {
    var labels := GetLabels(imageDir, store);
    LabelRecordsSound(imageDir, extension, labels, store, |labels|);
    LabelRecords(imageDir, extension, labels, store, |labels|)
  }

  /** The inner loop of the generators: the paths of one glob, each paired with `labelId`. */
  method TagPaths(paths: seq<string>, labelId: Option<nat>) returns (records: seq<ImageRecord>)
    ensures records == Tag(paths, labelId)
  {
    records := [];
    var i := 0;
    while i < |paths|
      invariant i <= |paths|
      invariant records == Tag(paths[..i], labelId)
    {
      assert paths[..i + 1][..i] == paths[..i];
      records := records + [ImageRecord(paths[i], labelId)];
      i := i + 1;
    }
    assert paths[..i] == paths;
  }

  /** `ImagePathGeneratorForTraining.__iter__`, run to the end. */
  method TrainingPaths(imageDir: string, extension: string, store: ImageStore) returns (records: seq<ImageRecord>)
    ensures records == TrainingRecords(imageDir, extension, store)
  {
    var labels := GetLabels(imageDir, store);
    records := [];
    var labelId := 0;
    while labelId < |labels|
      invariant labelId <= |labels|
      invariant records == LabelRecords(imageDir, extension, labels, store, labelId)
    {
      var paths := LabelPaths(imageDir, extension, labels[labelId], store);
      var tagged := TagPaths(paths, Some(labelId));
      records := records + tagged;
      labelId := labelId + 1;
    }
  }

  /**
   * Every record of the first `n` labels carries an id below `n`, its path is one
   * the glob of that label's directory returned, and the ids never decrease.
   */
  lemma {:induction false} LabelRecordsSound(imageDir: string, extension: string, labels: seq<string>,
                                             store: ImageStore, n: nat)
    requires n <= |labels|
    ensures forall i :: 0 <= i < |LabelRecords(imageDir, extension, labels, store, n)| ==>
              var r := LabelRecords(imageDir, extension, labels, store, n)[i];
              r.labelId.Some? && r.labelId.value < n
              && r.path in LabelPaths(imageDir, extension, labels[r.labelId.value], store)
    ensures forall i, j :: 0 <= i < j < |LabelRecords(imageDir, extension, labels, store, n)| ==>
              LabelRecords(imageDir, extension, labels, store, n)[i].labelId.value
              <= LabelRecords(imageDir, extension, labels, store, n)[j].labelId.value
  {
    if n > 0 {
      LabelRecordsSound(imageDir, extension, labels, store, n - 1);
      var prev := LabelRecords(imageDir, extension, labels, store, n - 1);
      var last := Tag(LabelPaths(imageDir, extension, labels[n - 1], store), Some(n - 1));
      var all := LabelRecords(imageDir, extension, labels, store, n);
      assert all == prev + last;
      forall i | 0 <= i < |all|
        ensures all[i].labelId.Some? && all[i].labelId.value < n
      {
        if i >= |prev| { assert all[i] == last[i - |prev|]; }
      }
    }
  }

  /** Every image the glob of a label's directory returns is yielded with that label's id. */
  lemma {:induction false} LabelRecordsComplete(imageDir: string, extension: string, labels: seq<string>,
                                                store: ImageStore, n: nat, id: nat, path: string)
    requires n <= |labels| && id < n
    requires path in LabelPaths(imageDir, extension, labels[id], store)
    ensures ImageRecord(path, Some(id)) in LabelRecords(imageDir, extension, labels, store, n)
  {
    var prev := LabelRecords(imageDir, extension, labels, store, n - 1);
    var paths := LabelPaths(imageDir, extension, labels[n - 1], store);
    if id < n - 1 {
      LabelRecordsComplete(imageDir, extension, labels, store, n - 1, id, path);
      assert ImageRecord(path, Some(id)) in prev;
    } else {
      var k :| 0 <= k < |paths| && paths[k] == path;
      assert Tag(paths, Some(n - 1))[k] == ImageRecord(path, Some(id));
    }
  }

  /**
   * The training records, against the labels document: each record's id indexes
   * the name of the label directory it was found in, and every image of every
   * label directory is among the records.
   */
  lemma TrainingRecordsSpec(imageDir: string, extension: string, store: ImageStore)
    ensures var labels := GetLabels(imageDir, store);
            var records := TrainingRecords(imageDir, extension, store);
            forall r :: r in records ==>
              r.labelId.Some? && r.labelId.value < |labels|
              && LabelsDocument(labels).items[r.labelId.value] == JStr(labels[r.labelId.value])
              && r.path in LabelPaths(imageDir, extension, labels[r.labelId.value], store)
    ensures var labels := GetLabels(imageDir, store);
            forall id, path :: 0 <= id < |labels| && path in LabelPaths(imageDir, extension, labels[id], store) ==>
              ImageRecord(path, Some(id)) in TrainingRecords(imageDir, extension, store)
  {
    var labels := GetLabels(imageDir, store);
    LabelRecordsSound(imageDir, extension, labels, store, |labels|);
    forall id: nat, path | id < |labels| && path in LabelPaths(imageDir, extension, labels[id], store)
      ensures ImageRecord(path, Some(id)) in TrainingRecords(imageDir, extension, store)
    {
      LabelRecordsComplete(imageDir, extension, labels, store, |labels|, id, path);
    }
  }

  /** Everything `ImagePathGeneratorForPrediction` yields: the images directly in the directory, unlabelled. */
  method PredictionPaths(imageDir: string, extension: string, store: ImageStore) returns (records: seq<ImageRecord>)
    ensures |records| == |store.glob(GlobPattern(imageDir, extension))|
    ensures forall i :: 0 <= i < |records| ==>
              records[i] == ImageRecord(store.glob(GlobPattern(imageDir, extension))[i], None)
  {
    records := TagPaths(store.glob(GlobPattern(imageDir, extension)), None);
  }

  // ---------------------------------------------------------------------------
  // The labels document.
  // ---------------------------------------------------------------------------

  /** `json.dumps(labels)`: the label names as one JSON array, the id of a label being its index. */
  function LabelsDocument(labels: seq<string>): Json
  {
    JArray(Strings(labels))
  }

  /** A labels document read back: an array of strings, or nothing. */
  function DocumentLabels(doc: Json): (labels: Option<seq<string>>)
  {
    if doc.JArray? then StringItems(doc.items) else None
  }

  /** Reading the labels document back gives the labels written. */
  lemma LabelsDocumentRoundTrip(labels: seq<string>)
    ensures DocumentLabels(LabelsDocument(labels)) == Some(labels)
  {
    StringItemsRoundTrip(labels);
  }

  /** `write_labels`: the labels file is (re)created holding the labels document alone. */
  method WriteLabels(dir: Directory, labels: seq<string>, labelsDataPath: string)
    requires dir.Valid()
    modifies dir
    ensures dir.Valid()
    ensures dir.files == old(dir.files)[labelsDataPath := [LabelsDocument(labels)]]
    ensures dir.listing == Opened(old(dir.listing), labelsDataPath)
  {
    ghost var files0 := dir.files;
    dir.Create(labelsDataPath);
    dir.Write(labelsDataPath, [LabelsDocument(labels)]);
    assert [] + [LabelsDocument(labels)] == [LabelsDocument(labels)];
    UpdateTwice(files0, labelsDataPath, [], [LabelsDocument(labels)]);
  }
}

=== FILE: extraction.dfy ===
/**
 * The per-chunk work: every image record is expanded into one JSON line per
 * (rotation, gamma pair), each line holding the feature vector that the extractor
 * computes for that combination; the process writer also reports progress.
 */
module Extraction {
  import opened Wrappers
  import opened Json
  import opened Messages

  /**
   * The feature extractor (`get_feature_vectors_from_files` on one path): image path,
   * number of quarter turns, gamma_min and gamma_max to the feature vector.
   */
  type Extractor = (string, int, real, real) -> seq<real>

  /** A `(path, label_id)` pair; the label is absent in prediction mode. */
  datatype ImageRecord = ImageRecord(path: string, labelId: Option<nat>)

  type GammaPair = (real, real)

  /** The `(gamma_min, gamma_max)` pairs of the process writer, in order. */
  const ProcessGammas: seq<GammaPair> := [(1.0, 1.0), (0.5, 1.3)]

  /** The gammas of the thread writer, each passed as gamma_min with gamma_max left at 1. */
  const ThreadGammas: seq<GammaPair> := [(0.5, 1.0), (1.0, 1.0), (1.5, 1.0)]

  /** `len(range(rotations + 1))`: the turns 0 .. rotations, none when rotations < 0. */
  function Turns(rotations: int): nat
  {
    if rotations + 1 > 0 then rotations + 1 else 0
  }

  /** Reads the record back from a written line: `image_uri` and, when present, `label_id`. */
  function LineRecord(line: Line): Option<ImageRecord>
  {
    if line.JObject? && "image_uri" in line.fields && line.fields["image_uri"].JStr? then
      var path := line.fields["image_uri"].s;
      if "label_id" !in line.fields then Some(ImageRecord(path, None))
      else if line.fields["label_id"].JInt? && line.fields["label_id"].i >= 0 then
        Some(ImageRecord(path, Some(line.fields["label_id"].i)))
      else None
    else None
  }

  /** `extract_data_for_path`: the JSON object written for one image, turn and gamma pair. */
  function ExtractDataForPath(extractor: Extractor, imagePath: string, labelId: Option<nat>, turn: int,
                              gammaMin: real, gammaMax: real): Line
  {
    var vector := extractor(imagePath, turn, gammaMin, gammaMax);
    var line := map["image_uri" := JStr(imagePath), "feature_vector" := JArray(Numbers(vector))];
    if labelId.Some? then JObject(line["label_id" := JInt(labelId.value)]) else JObject(line)
  }

  /**
   * The object holds `image_uri`, the feature vector the extractor computes for this
   * turn and gamma pair, and `label_id` exactly when the record has a label.
   */
  lemma ExtractDataForPathFields(extractor: Extractor, imagePath: string, labelId: Option<nat>, turn: int,
                                 gammaMin: real, gammaMax: real)
    ensures var line := ExtractDataForPath(extractor, imagePath, labelId, turn, gammaMin, gammaMax);
            line.JObject?
            && "image_uri" in line.fields && line.fields["image_uri"] == JStr(imagePath)
            && ("label_id" in line.fields <==> labelId.Some?)
            && (labelId.Some? ==> line.fields["label_id"] == JInt(labelId.value))
            && "feature_vector" in line.fields
            && line.fields["feature_vector"] == JArray(Numbers(extractor(imagePath, turn, gammaMin, gammaMax)))
            && line.fields.Keys <= {"image_uri", "feature_vector", "label_id"}
  {
  }

  /** Reading a written line back gives the record it was written for. */
  lemma LineRecordRoundTrip(extractor: Extractor, imagePath: string, labelId: Option<nat>, turn: int,
                            gammaMin: real, gammaMax: real)
    ensures LineRecord(ExtractDataForPath(extractor, imagePath, labelId, turn, gammaMin, gammaMax))
            == Some(ImageRecord(imagePath, labelId))
  {
    ExtractDataForPathFields(extractor, imagePath, labelId, turn, gammaMin, gammaMax);
  }

  /** The line written for one record at one turn with one gamma pair. */
  function RecordLine(extractor: Extractor, rec: ImageRecord, turn: int, gamma: GammaPair): Line
  {
    ExtractDataForPath(extractor, rec.path, rec.labelId, turn, gamma.0, gamma.1)
  }

  /** The lines of one record at one turn: one per gamma pair, in order. */
  function GammaLines(extractor: Extractor, rec: ImageRecord, turn: int, gammas: seq<GammaPair>): seq<Line>
  {
    if gammas == [] then []
    else
      var last := gammas[|gammas| - 1];
      GammaLines(extractor, rec, turn, gammas[..|gammas| - 1])
        + [RecordLine(extractor, rec, turn, last)]
  }

  /** The lines of one record for the turns 0 .. turns - 1, turn by turn. */
  function RecordLines(extractor: Extractor, rec: ImageRecord, turns: nat, gammas: seq<GammaPair>): seq<Line>
  {
    if turns == 0 then []
    else RecordLines(extractor, rec, turns - 1, gammas) + GammaLines(extractor, rec, turns - 1, gammas)
  }

  /** The lines written for `recs`, record by record. */
  function ExpandAll(extractor: Extractor, recs: seq<ImageRecord>, rotations: int, gammas: seq<GammaPair>): seq<Line>
  {
    if recs == [] then []
    else
      ExpandAll(extractor, recs[..|recs| - 1], rotations, gammas)
        + RecordLines(extractor, recs[|recs| - 1], Turns(rotations), gammas)
  }

  /** Expanding a concatenation expands each part: the expansion works record by record. */
  lemma {:induction false} ExpandAllAppend(extractor: Extractor, a: seq<ImageRecord>, b: seq<ImageRecord>,
                                           rotations: int, gammas: seq<GammaPair>)
    ensures ExpandAll(extractor, a + b, rotations, gammas)
            == ExpandAll(extractor, a, rotations, gammas) + ExpandAll(extractor, b, rotations, gammas)
  {
    if b == [] {
      assert a + b == a;
    } else {
      var init := b[..|b| - 1];
      assert (a + b)[..|a + b| - 1] == a + init;
      ExpandAllAppend(extractor, a, init, rotations, gammas);
    }
  }

  /** The progress messages sent after the records 1 .. n: one after every 20th. */
  function ProgressMessages(n: nat): (msgs: seq<Message>)
    ensures forall k :: 0 <= k < |msgs| ==> msgs[k] == Message(PROGRESS, 20)
  {
    if n == 0 then []
    else ProgressMessages(n - 1) + (if n % 20 == 0 then [Message(PROGRESS, 20)] else [])
  }

  lemma {:induction false} GammaLinesAt(extractor: Extractor, rec: ImageRecord, turn: int, gammas: seq<GammaPair>, g: nat)
    requires g < |gammas|
    ensures |GammaLines(extractor, rec, turn, gammas)| == |gammas|
    ensures GammaLines(extractor, rec, turn, gammas)[g]
            == RecordLine(extractor, rec, turn, gammas[g])
  {
    var init := gammas[..|gammas| - 1];
    if g < |gammas| - 1 {
      GammaLinesAt(extractor, rec, turn, init, g);
    } else if init != [] {
      GammaLinesAt(extractor, rec, turn, init, 0);
    }
  }

  /** `count × size` as repeated addition, which keeps line positions linear for the solver. */
  function Times(count: nat, size: nat): nat
  {
    if count == 0 then 0 else Times(count - 1, size) + size
  }

  lemma {:induction false} TimesIsProduct(count: nat, size: nat)
    ensures Times(count, size) == count * size
  {
    if count > 0 {
      TimesIsProduct(count - 1, size);
      assert (count - 1) * size + size == count * size;
    }
  }

  /** Block `k` of `n` blocks of `size` lies within the first `Times(n, size)` positions. */
  lemma {:induction false} TimesBlock(k: nat, n: nat, size: nat)
    requires k < n
    ensures Times(k, size) + size <= Times(n, size)
  {
    if k < n - 1 {
      TimesBlock(k, n - 1, size);
    }
  }

  lemma {:induction false} RecordLinesLength(extractor: Extractor, rec: ImageRecord, turns: nat, gammas: seq<GammaPair>)
    ensures |RecordLines(extractor, rec, turns, gammas)| == Times(turns, |gammas|)
  {
    if turns > 0 {
      RecordLinesLength(extractor, rec, turns - 1, gammas);
      if gammas != [] {
        GammaLinesAt(extractor, rec, turns - 1, gammas, 0);
      }
    }
  }

  /** Within one record, the line of turn `t` and gamma pair `g` is line `Times(t, gamma pairs) + g`. */
  lemma {:induction false} RecordLinesAt(extractor: Extractor, rec: ImageRecord, turns: nat, gammas: seq<GammaPair>,
                                         t: nat, g: nat, j: nat)
    requires t < turns && g < |gammas| && j == Times(t, |gammas|) + g
    ensures j < |RecordLines(extractor, rec, turns, gammas)|
    ensures RecordLines(extractor, rec, turns, gammas)[j] == RecordLine(extractor, rec, t, gammas[g])
  {
    var earlier := RecordLines(extractor, rec, turns - 1, gammas);
    var last := GammaLines(extractor, rec, turns - 1, gammas);
    assert RecordLines(extractor, rec, turns, gammas) == earlier + last;
    if t < turns - 1 {
      RecordLinesAt(extractor, rec, turns - 1, gammas, t, g, j);
      assert (earlier + last)[j] == earlier[j];
    } else {
      RecordLinesLength(extractor, rec, turns - 1, gammas);
      GammaLinesAt(extractor, rec, t, gammas, g);
      assert (earlier + last)[j] == last[g];
    }
  }

  /** The expansion writes `Times(records, turns × gamma pairs)` lines. */
  lemma {:induction false} ExpandAllLength(extractor: Extractor, recs: seq<ImageRecord>, rotations: int, gammas: seq<GammaPair>)
    ensures |ExpandAll(extractor, recs, rotations, gammas)| == Times(|recs|, Times(Turns(rotations), |gammas|))
  {
    if recs != [] {
      ExpandAllLength(extractor, recs[..|recs| - 1], rotations, gammas);
      RecordLinesLength(extractor, recs[|recs| - 1], Turns(rotations), gammas);
    }
  }

  /**
   * `write_features` writes `records × (rotations + 1) × gamma pairs` lines (none
   * when rotations < 0).
   */
  lemma {:induction false} ExpandAllCount(extractor: Extractor, recs: seq<ImageRecord>, rotations: int, gammas: seq<GammaPair>)
    ensures rotations >= 0 ==> |ExpandAll(extractor, recs, rotations, gammas)| == |recs| * ((rotations + 1) * |gammas|)
    ensures rotations < 0 ==> ExpandAll(extractor, recs, rotations, gammas) == []
  {
    ExpandAllLength(extractor, recs, rotations, gammas);
    TimesIsProduct(Turns(rotations), |gammas|);
    TimesIsProduct(|recs|, Times(Turns(rotations), |gammas|));
    if rotations < 0 {
      assert |recs| * (0 * |gammas|) == 0;
    }
  }

  /** Record `k`'s lines form the block that starts at line `Times(k, turns × gamma pairs)`. */
  lemma {:induction false} ExpandAllBlock(extractor: Extractor, recs: seq<ImageRecord>, rotations: int, gammas: seq<GammaPair>,
                                          k: nat, j: nat, i: nat)
    requires k < |recs| && j < |RecordLines(extractor, recs[k], Turns(rotations), gammas)|
    requires i == Times(k, Times(Turns(rotations), |gammas|)) + j
    ensures i < |ExpandAll(extractor, recs, rotations, gammas)|
    ensures ExpandAll(extractor, recs, rotations, gammas)[i] == RecordLines(extractor, recs[k], Turns(rotations), gammas)[j]
  {
    var before, after := recs[..k], recs[k + 1..];
    var lines := RecordLines(extractor, recs[k], Turns(rotations), gammas);
    assert recs == before + ([recs[k]] + after);
    ExpandAllAppend(extractor, before, [recs[k]] + after, rotations, gammas);
    ExpandAllAppend(extractor, [recs[k]], after, rotations, gammas);
    assert [recs[k]][..0] == [];
    assert ExpandAll(extractor, [recs[k]], rotations, gammas) == lines;
    ExpandAllLength(extractor, before, rotations, gammas);
    var head := ExpandAll(extractor, before, rotations, gammas);
    assert ExpandAll(extractor, recs, rotations, gammas) == head + (lines + ExpandAll(extractor, after, rotations, gammas));
    assert i == |head| + j;
  }

  /**
   * The lines come record by record, then turn by turn, then gamma pair by gamma pair:
   * the line for record `k`, turn `t` and gamma pair `g` is line
   * `Times(k, turns × gamma pairs) + Times(t, gamma pairs) + g`.
   */
  lemma {:induction false} ExpandAllAt(extractor: Extractor, recs: seq<ImageRecord>, rotations: int, gammas: seq<GammaPair>,
                                       k: nat, t: nat, g: nat, i: nat)
    requires k < |recs| && t < Turns(rotations) && g < |gammas|
    requires i == Times(k, Times(Turns(rotations), |gammas|)) + Times(t, |gammas|) + g
    ensures i < |ExpandAll(extractor, recs, rotations, gammas)|
    ensures ExpandAll(extractor, recs, rotations, gammas)[i] == RecordLine(extractor, recs[k], t, gammas[g])
  {
    var j := Times(t, |gammas|) + g;
    RecordLinesAt(extractor, recs[k], Turns(rotations), gammas, t, g, j);
    ExpandAllBlock(extractor, recs, rotations, gammas, k, j, i);
  }

  /** The same position as a product: `k × ((rotations + 1) × gamma pairs) + t × gamma pairs + g`. */
  lemma {:induction false} ExpandAllPosition(extractor: Extractor, recs: seq<ImageRecord>, rotations: int, gammas: seq<GammaPair>,
                          k: nat, t: nat, g: nat)
    requires k < |recs| && 0 <= t <= rotations && g < |gammas|
    ensures k * ((rotations + 1) * |gammas|) + t * |gammas| + g < |ExpandAll(extractor, recs, rotations, gammas)|
    ensures ExpandAll(extractor, recs, rotations, gammas)[k * ((rotations + 1) * |gammas|) + t * |gammas| + g]
            == RecordLine(extractor, recs[k], t, gammas[g])
  {
    TimesIsProduct(Turns(rotations), |gammas|);
    TimesIsProduct(k, Times(Turns(rotations), |gammas|));
    TimesIsProduct(t, |gammas|);
    ExpandAllAt(extractor, recs, rotations, gammas, k, t, g, k * ((rotations + 1) * |gammas|) + t * |gammas| + g);
  }

  /**
   * One `("PROGRESS", 20)` message per complete group of 20 records: `n / 20` messages
   * reporting `20 * (n / 20)` records, which falls short of `n` by the remainder.
   */
  lemma {:induction false} ProgressMessagesCount(n: nat)
    ensures |ProgressMessages(n)| == n / 20
    ensures forall i :: 0 <= i < |ProgressMessages(n)| ==> ProgressMessages(n)[i] == Message(PROGRESS, 20)
    ensures Reported(ProgressMessages(n)) == 20 * (n / 20)
    ensures 0 <= n - Reported(ProgressMessages(n)) < 20
  {
    if n > 0 {
      ProgressMessagesCount(n - 1);
      var prev := ProgressMessages(n - 1);
      if n % 20 == 0 {
        assert (prev + [Message(PROGRESS, 20)])[..|prev|] == prev;
        assert n / 20 == (n - 1) / 20 + 1;
      } else {
        assert prev + [] == prev;
        assert n / 20 == (n - 1) / 20;
      }
    }
  }

  /**
   * The two inner loops of both writers: the lines of one record, turns ascending and,
   * within a turn, one line per gamma pair in order.
   */
  method WriteRecord(extractor: Extractor, rec: ImageRecord, rotations: int, gammas: seq<GammaPair>)
    returns (lines: seq<Line>)
    ensures lines == RecordLines(extractor, rec, Turns(rotations), gammas)
  {
    lines := [];
    var i := 0;
    while i < rotations + 1
      invariant 0 <= i <= Turns(rotations)
      invariant lines == RecordLines(extractor, rec, i, gammas)
    {
      ghost var before := lines;
      for g := 0 to |gammas|
        invariant lines == before + GammaLines(extractor, rec, i, gammas[..g])
      {
        var (gammaMin, gammaMax) := gammas[g];
        assert gammas[..g + 1][..g] == gammas[..g];
        lines := lines + [ExtractDataForPath(extractor, rec.path, rec.labelId, i, gammaMin, gammaMax)];
      }
      assert gammas[..|gammas|] == gammas;
      i := i + 1;
    }
  }

  /** The lines of a batch, record by record (the record loop of the thread writer). */
  method WriteBatch(extractor: Extractor, batch: seq<ImageRecord>, rotations: int, gammas: seq<GammaPair>)
    returns (lines: seq<Line>)
    ensures lines == ExpandAll(extractor, batch, rotations, gammas)
  {
    lines := [];
    for j := 0 to |batch|
      invariant lines == ExpandAll(extractor, batch[..j], rotations, gammas)
    {
      assert batch[..j + 1][..j] == batch[..j];
      var recordLines := WriteRecord(extractor, batch[j], rotations, gammas);
      lines := lines + recordLines;
    }
    assert batch[..|batch|] == batch;
  }

  /** `FeaturesDataWriterProcess`: writes the features of one chunk and reports progress. */
  class FeaturesDataWriterProcess {
    const imageList: seq<ImageRecord>
    const extractor: Extractor
    const progressQueue: MessageQueue

    constructor (imageList: seq<ImageRecord>, extractor: Extractor, progressQueue: MessageQueue)
      ensures this.imageList == imageList && this.extractor == extractor && this.progressQueue == progressQueue
    {
      this.imageList := imageList;
      this.extractor := extractor;
      this.progressQueue := progressQueue;
    }

    /**
     * `write_features`: returns the content of the freshly opened features file, the
     * lines of every record in chunk order; a `("PROGRESS", 20)` message follows every
     * 20th record.
     */
    method WriteFeatures(rotations: int) returns (file: seq<Line>)
      modifies progressQueue
      ensures file == ExpandAll(extractor, imageList, rotations, ProcessGammas)
      ensures progressQueue.items == old(progressQueue.items) + ProgressMessages(|imageList|)
    {
      file := [];
      var index := 0;
      while index < |imageList|
        invariant 0 <= index <= |imageList|
        invariant file == ExpandAll(extractor, imageList[..index], rotations, ProcessGammas)
        invariant progressQueue.items == old(progressQueue.items) + ProgressMessages(index)
      {
        assert imageList[..index + 1][..index] == imageList[..index];
        var lines := WriteRecord(extractor, imageList[index], rotations, ProcessGammas);
        assert file + lines == ExpandAll(extractor, imageList[..index + 1], rotations, ProcessGammas);
        file := file + lines;
        if (index + 1) % 20 == 0 {
          progressQueue.Put(Message(PROGRESS, 20));
        }
        index := index + 1;
      }
      assert imageList[..index] == imageList;
    }
  }

  /** A single stream of records shared by the thread writers (`islice` on one generator). */
  class PathCursor {
    var remaining: seq<ImageRecord>

    constructor (records: seq<ImageRecord>)
      ensures remaining == records
    {
      remaining := records;
    }

    /** `list(islice(generator, batchSize))`: the next `batchSize` records, fewer at the end. */
    method NextBatch(batchSize: nat) returns (batch: seq<ImageRecord>)
      modifies this
      ensures |batch| == if batchSize < |old(remaining)| then batchSize else |old(remaining)|
      ensures old(remaining) == batch + remaining
    {
      var n := if batchSize < |remaining| then batchSize else |remaining|;
      batch := remaining[..n];
      remaining := remaining[n..];
    }
  }

  /** How the thread writer ends: normally, or with `islice` rejecting a negative batch size. */
  datatype WriteOutcome = Completed | ValueError

  /** `FeaturesDataWriter`: pulls batches from the shared stream until a batch comes back empty. */
  class FeaturesDataWriter {
    const pathGenerator: PathCursor
    const extractor: Extractor
    const batchSize: int

    constructor (pathGenerator: PathCursor, extractor: Extractor, batchSize: int)
      ensures this.pathGenerator == pathGenerator && this.extractor == extractor && this.batchSize == batchSize
    {
      this.pathGenerator := pathGenerator;
      this.extractor := extractor;
      this.batchSize := batchSize;
    }

    /**
     * `write_features`: returns how the loop ended and the content of the features file.
     * A positive batch size drains the stream; a zero batch size gets an empty first batch.
     */
    method WriteFeatures(rotations: int) returns (outcome: WriteOutcome, file: seq<Line>)
      modifies pathGenerator
      ensures outcome == ValueError <==> batchSize < 0
      ensures batchSize <= 0 ==> file == [] && pathGenerator.remaining == old(pathGenerator.remaining)
      ensures batchSize > 0 ==>
                file == ExpandAll(extractor, old(pathGenerator.remaining), rotations, ThreadGammas) && pathGenerator.remaining == []
    {
      file := [];
      if batchSize < 0 {
        return ValueError, file;
      }
      ghost var done: seq<ImageRecord> := [];
      while true
        invariant old(pathGenerator.remaining) == done + pathGenerator.remaining
        invariant file == ExpandAll(extractor, done, rotations, ThreadGammas)
        invariant batchSize == 0 ==> done == []
        decreases |pathGenerator.remaining|
      {
        ghost var rest := pathGenerator.remaining;
        var imageBatch := pathGenerator.NextBatch(batchSize);
        if |imageBatch| == 0 {
          assert pathGenerator.remaining == rest;
          break;
        }
        assert rest == imageBatch + pathGenerator.remaining;
        var lines := WriteBatch(extractor, imageBatch, rotations, ThreadGammas);
        ExpandAllAppend(extractor, done, imageBatch, rotations, ThreadGammas);
        assert file + lines == ExpandAll(extractor, done + imageBatch, rotations, ThreadGammas);
        file := file + lines;
        assert old(pathGenerator.remaining) == (done + imageBatch) + pathGenerator.remaining;
        done := done + imageBatch;
      }
      if batchSize > 0 {
        assert pathGenerator.remaining == [];
        assert done == done + pathGenerator.remaining == old(pathGenerator.remaining);
      }
      return Completed, file;
    }
  }
}

=== FILE: json.dfy ===
/** The JSON values that the pipeline writes: one value per line of a features file. */
module Json {
  import opened Wrappers

  datatype Json =
    | JStr(s: string)
    | JInt(i: int)
    | JNum(x: real)
    | JArray(items: seq<Json>)
    | JObject(fields: map<string, Json>)

  /** One line of a JSON-lines file. */
  type Line = Json

  /** A feature vector as a JSON array of numbers (`ndarray.tolist()`). */
  function Numbers(v: seq<real>): seq<Json>
  {
    seq(|v|, i requires 0 <= i < |v| => JNum(v[i]))
  }

  /** A list of strings as a JSON array of strings (`json.dumps(labels)`). */
  function Strings(v: seq<string>): seq<Json>
  {
    seq(|v|, i requires 0 <= i < |v| => JStr(v[i]))
  }

  /** An array of numbers read back, or nothing when an item is not a number. */
  function NumberItems(items: seq<Json>): Option<seq<real>>
  {
    if items == [] then Some([])
    else if !items[|items| - 1].JNum? then None
    else match NumberItems(items[..|items| - 1])
         case None => None
         case Some(init) => Some(init + [items[|items| - 1].x])
  }

  /** Reading a feature vector's array back gives the vector written. */
  lemma {:induction false} NumberItemsRoundTrip(v: seq<real>)
    ensures NumberItems(Numbers(v)) == Some(v)
  {
    if v != [] {
      var init := v[..|v| - 1];
      NumberItemsRoundTrip(init);
      assert Numbers(v)[..|v| - 1] == Numbers(init);
      assert init + [v[|v| - 1]] == v;
    }
  }

  /** An array of strings read back, or nothing when an item is not a string. */
  function StringItems(items: seq<Json>): Option<seq<string>>
  {
    if items == [] then Some([])
    else if !items[|items| - 1].JStr? then None
    else match StringItems(items[..|items| - 1])
         case None => None
         case Some(init) => Some(init + [items[|items| - 1].s])
  }

  lemma {:induction false} StringItemsRoundTrip(labels: seq<string>)
    ensures StringItems(Strings(labels)) == Some(labels)
  {
    if labels != [] {
      var init := labels[..|labels| - 1];
      StringItemsRoundTrip(init);
      assert Strings(labels)[..|labels| - 1] == Strings(init);
      assert init + [labels[|labels| - 1]] == labels;
    }
  }
}


=== FILE: messages.dfy ===
/** The progress channel between the writer processes and the progress printer. */
module Messages {
  const PROGRESS: string := "PROGRESS"
  const CLOSE: string := "CLOSE"

  /** A `(message_type, data)` tuple put on the progress queue. */
  datatype Message = Message(kind: string, data: int)

  /** What one message adds to the count of processed images. */
  function Counted(m: Message): int
  {
    if m.kind == PROGRESS then m.data else 0
  }

  /** The total count carried by the `PROGRESS` messages of `msgs`; other kinds add nothing. */
  function Reported(msgs: seq<Message>): int
  {
    if msgs == [] then 0
    else Reported(msgs[..|msgs| - 1]) + Counted(msgs[|msgs| - 1])
  }

  lemma {:induction false} ReportedAppend(a: seq<Message>, b: seq<Message>)
    ensures Reported(a + b) == Reported(a) + Reported(b)
  {
    if b == [] {
      assert a + b == a;
    } else {
      var init := b[..|b| - 1];
      ReportedAppend(a, init);
      assert (a + b)[..|a + b| - 1] == a + init;
    }
  }

  /**
   * The count does not depend on the order the messages arrive in: producers
   * interleave their messages on the shared queue in any order.
   */
  lemma {:induction false} ReportedPermutation(a: seq<Message>, b: seq<Message>)
    requires multiset(a) == multiset(b)
    ensures Reported(a) == Reported(b)
    decreases |a|
  {
    if a != [] {
      var init, x := a[..|a| - 1], a[|a| - 1];
      assert a == init + [x];
      assert x in multiset(b);
      var i :| 0 <= i < |b| && b[i] == x;
      var before, after := b[..i], b[i + 1..];
      assert b == before + [x] + after;
      assert multiset(b) == multiset(before) + multiset{x} + multiset(after);
      assert multiset(a) == multiset(init) + multiset{x};
      assert multiset(before + after) == multiset(b) - multiset{x};
      assert multiset(init) == multiset(a) - multiset{x};
      ReportedPermutation(init, before + after);
      ReportedAppend(init, [x]);
      ReportedAppend(before + [x], after);
      ReportedAppend(before, [x]);
      ReportedAppend(before, after);
      assert [x][..0] == [];
    }
  }

  /** The first-in first-out queue shared by every producer and the one consumer. */
  class MessageQueue {
    var items: seq<Message>

    constructor ()
      ensures items == []
    {
      items := [];
    }

    method Put(m: Message)
      modifies this
      ensures items == old(items) + [m]
    {
      items := items + [m];
    }

    /** Takes the oldest message; the caller checks that there is one (a real `get()` would block). */
    method Get() returns (m: Message)
      requires items != []
      modifies this
      ensures m == old(items)[0]
      ensures items == old(items)[1..]
    {
      m := items[0];
      items := items[1..];
    }
  }
}

=== FILE: partial_files.dfy ===
/**
 * The partial features files of a pass: the name `<prefix><index>.json` of each
 * worker's file, the directory once the workers have written them in some order, and
 * what `_merge_files` makes of them.
 */
module PartialFiles {
  import opened Json
  import opened Storage
  import opened Chunking

  // ---------------------------------------------------------------------------
  // Partial file names.
  // ---------------------------------------------------------------------------

  function Digit(d: nat): char
    requires d < 10
  {
    ('0' as int + d) as char
  }

  /** `str(n)`: the decimal digits of `n`, most significant first. */
  function NatToString(n: nat): (s: string)
    ensures |s| >= 1
  {
    if n < 10 then [Digit(n)] else NatToString(n / 10) + [Digit(n % 10)]
  }

  /** `int(s)` on a string of decimal digits. */
  function StringToNat(s: string): int
    requires |s| >= 1
  {
    var last := s[|s| - 1] as int - '0' as int;
    if |s| == 1 then last else 10 * StringToNat(s[..|s| - 1]) + last
  }

  lemma {:induction false} NatToStringRoundTrip(n: nat)
    ensures StringToNat(NatToString(n)) == n
  {
    if n >= 10 {
      NatToStringRoundTrip(n / 10);
      var s := NatToString(n);
      assert s[..|s| - 1] == NatToString(n / 10);
    }
  }

  /** The partial features file of worker `index`: `<prefix><index>.json`. */
  function PartialName(prefix: string, index: nat): (name: string)
    ensures StartsWith(name, prefix)
  {
    var name := prefix + NatToString(index) + ".json";
    assert name[..|prefix|] == prefix;
    name
  }

  /** The worker index a partial file name carries. */
  function PartialIndex(prefix: string, name: string): int
    requires |name| >= |prefix| + 6
  {
    StringToNat(name[|prefix|..|name| - 5])
  }

  /** Every worker gets a file of its own: the name gives back the index. */
  lemma PartialNameRoundTrip(prefix: string, index: nat)
    ensures |PartialName(prefix, index)| >= |prefix| + 6
    ensures PartialIndex(prefix, PartialName(prefix, index)) == index
  {
    var digits := NatToString(index);
    var name := PartialName(prefix, index);
    assert name[|prefix|..|name| - 5] == digits;
    NatToStringRoundTrip(index);
  }

  /** The partial file names of the workers in `walk`, in that order. */
  function Partials(prefix: string, walk: seq<nat>): (names: seq<string>)
    ensures |names| == |walk|
    ensures forall s :: 0 <= s < |walk| ==> names[s] == PartialName(prefix, walk[s])
  {
    if walk == [] then [] else Partials(prefix, walk[..|walk| - 1]) + [PartialName(prefix, walk[|walk| - 1])]
  }

  lemma PartialNotListed(prefix: string, index: nat, walk: seq<nat>, listing: seq<string>)
    requires index !in walk
    requires forall name :: name in listing ==> !StartsWith(name, prefix)
    ensures PartialName(prefix, index) !in listing + Partials(prefix, walk)
  {
    PartialNameRoundTrip(prefix, index);
    forall s | 0 <= s < |walk|
      ensures Partials(prefix, walk)[s] != PartialName(prefix, index)
    {
      PartialNameRoundTrip(prefix, walk[s]);
    }
  }

  // ---------------------------------------------------------------------------
  // The directory once the workers are done.
  // ---------------------------------------------------------------------------

  /** The files after each worker `j` of `walk`, in that order, has written `outs[j]` to its partial file. */
  function Written(files: map<string, seq<Line>>, prefix: string, walk: seq<nat>, outs: seq<seq<Line>>)
    : map<string, seq<Line>>
    requires forall s :: 0 <= s < |walk| ==> walk[s] < |outs|
  {
    if walk == [] then files
    else
      var last := walk[|walk| - 1];
      Written(files, prefix, walk[..|walk| - 1], outs)[PartialName(prefix, last) := outs[last]]
  }

  /** Each partial file holds its worker's output, and every other file is as it was. */
  lemma {:induction false} WrittenAt(files: map<string, seq<Line>>, prefix: string, walk: seq<nat>,
                                     outs: seq<seq<Line>>)
    requires forall s :: 0 <= s < |walk| ==> walk[s] < |outs|
    ensures forall s :: 0 <= s < |walk| ==>
              PartialName(prefix, walk[s]) in Written(files, prefix, walk, outs)
              && Written(files, prefix, walk, outs)[PartialName(prefix, walk[s])] == outs[walk[s]]
    ensures forall name :: !StartsWith(name, prefix) ==>
              (name in Written(files, prefix, walk, outs) <==> name in files)
              && (name in files ==> Written(files, prefix, walk, outs)[name] == files[name])
  {
    if walk != [] {
      var init, last := walk[..|walk| - 1], walk[|walk| - 1];
      WrittenAt(files, prefix, init, outs);
      PartialNameRoundTrip(prefix, last);
      forall s | 0 <= s < |init|
        ensures init[s] == last || PartialName(prefix, init[s]) != PartialName(prefix, last)
      {
        PartialNameRoundTrip(prefix, init[s]);
      }
    }
  }

  lemma {:induction false} MergedContentUnprefixed(files: map<string, seq<Line>>, listing: seq<string>, prefix: string)
    requires forall name :: name in listing ==> !StartsWith(name, prefix)
    ensures MergedContent(files, listing, prefix) == []
  {
    if listing != [] {
      MergedContentUnprefixed(files, listing[..|listing| - 1], prefix);
    }
  }

  /** Merging after the workers concatenates their outputs in the order the walk lists their files. */
  lemma {:induction false} MergedPartials(files: map<string, seq<Line>>, listing: seq<string>, prefix: string,
                                          walk: seq<nat>, outs: seq<seq<Line>>)
    requires forall name :: name in listing ==> !StartsWith(name, prefix)
    requires forall s :: 0 <= s < |walk| ==> walk[s] < |outs|
    requires forall s :: 0 <= s < |walk| ==>
               PartialName(prefix, walk[s]) in files && files[PartialName(prefix, walk[s])] == outs[walk[s]]
    ensures MergedContent(files, listing + Partials(prefix, walk), prefix) == Flatten(Reorder(outs, walk))
  {
    if walk == [] {
      assert listing + [] == listing;
      assert Reorder(outs, walk) == [];
      MergedContentUnprefixed(files, listing, prefix);
    } else {
      var init, last := walk[..|walk| - 1], walk[|walk| - 1];
      assert walk == init + [last];
      assert forall s :: 0 <= s < |init| ==> init[s] == walk[s];
      MergedPartials(files, listing, prefix, init, outs);
      var name := PartialName(prefix, last);
      var before := listing + Partials(prefix, init);
      assert listing + Partials(prefix, walk) == before + [name];
      MergedContentSnoc(files, before, name, prefix);
      assert files[name] == outs[walk[|walk| - 1]];
      FlattenLast(outs, init, last);
    }
  }

  lemma FlattenLast(outs: seq<seq<Line>>, init: seq<nat>, last: nat)
    requires forall s :: 0 <= s < |init| ==> init[s] < |outs|
    requires last < |outs|
    ensures Flatten(Reorder(outs, init + [last])) == Flatten(Reorder(outs, init)) + outs[last]
  {
    ReorderAppend(outs, init, [last]);
    assert Reorder(outs, [last]) == [outs[last]];
    FlattenAppend(Reorder(outs, init), [outs[last]]);
    assert Flatten([outs[last]]) == outs[last] + Flatten<Line>([]);
  }

  lemma {:induction false} KeepDropsPartials(listing: seq<string>, prefix: string, walk: seq<nat>)
    requires forall name :: name in listing ==> !StartsWith(name, prefix)
    ensures KeepUnprefixed(listing + Partials(prefix, walk), prefix) == listing
  {
    if walk == [] {
      assert listing + [] == listing;
      KeepUnprefixedNone(listing, prefix);
    } else {
      KeepDropsPartials(listing, prefix, walk[..|walk| - 1]);
      var names := listing + Partials(prefix, walk);
      assert names[..|names| - 1] == listing + Partials(prefix, walk[..|walk| - 1]);
    }
  }

  /** The listing the merge leaves: the one before the pass, with the features file opened. */
  lemma ListingAfterMerge(listing: seq<string>, prefix: string, walk: seq<nat>, outputFile: string)
    requires forall name :: name in listing ==> !StartsWith(name, prefix)
    requires !StartsWith(outputFile, prefix)
    ensures KeepUnprefixed(Opened(listing + Partials(prefix, walk), outputFile), prefix) == Opened(listing, outputFile)
  {
    KeepDropsPartials(listing, prefix, walk);
    var names := listing + Partials(prefix, walk);
    if outputFile !in names {
      var withOutput := names + [outputFile];
      assert withOutput[..|withOutput| - 1] == names;
    }
  }

  /** The files the merge leaves: the ones before the pass, with the features file written. */
  lemma FilesAfterMerge(files: map<string, seq<Line>>, prefix: string, walk: seq<nat>, outs: seq<seq<Line>>,
                        outputFile: string, content: seq<Line>)
    requires forall name :: name in files ==> !StartsWith(name, prefix)
    requires forall s :: 0 <= s < |walk| ==> walk[s] < |outs|
    ensures Unprefixed(Written(files, prefix, walk, outs), prefix)[outputFile := content] == files[outputFile := content]
  {
    WrittenAt(files, prefix, walk, outs);
    var pruned := Unprefixed(Written(files, prefix, walk, outs), prefix);
    assert pruned.Keys == files.Keys;
    assert pruned == files;
  }

  /** Worker `index` opens its partial file and writes its output there. */
  method StorePartial(dir: Directory, prefix: string, index: nat, file: seq<Line>,
                      ghost files0: map<string, seq<Line>>, ghost listing0: seq<string>, ghost walk: seq<nat>,
                      ghost outs: seq<seq<Line>>)
    requires dir.Valid() && index < |outs| && file == outs[index] && index !in walk
    requires forall s :: 0 <= s < |walk| ==> walk[s] < |outs|
    requires forall name :: name in listing0 ==> !StartsWith(name, prefix)
    requires dir.files == Written(files0, prefix, walk, outs)
    requires dir.listing == listing0 + Partials(prefix, walk)
    modifies dir
    ensures dir.Valid()
    ensures dir.files == Written(files0, prefix, walk + [index], outs)
    ensures dir.listing == listing0 + Partials(prefix, walk + [index])
  {
    var name := PartialName(prefix, index);
    PartialNotListed(prefix, index, walk, listing0);
    ghost var before := dir.files;
    dir.Create(name);
    dir.Write(name, file);
    assert [] + file == file;
    UpdateTwice(before, name, [], file);
    assert (walk + [index])[..|walk|] == walk;
  }

  /**
   * `_merge_files` after the workers: the partial files of `outs` are concatenated, in
   * the order the walk lists them, into `outputFile` and removed, which leaves the
   * directory as it was before the pass but for the features file.
   */
  method MergePartials(dir: Directory, outputFile: string, prefix: string, ghost files0: map<string, seq<Line>>,
                       ghost listing0: seq<string>, ghost walk: seq<nat>, ghost outs: seq<seq<Line>>)
    requires dir.Valid() && !StartsWith(outputFile, prefix)
    requires forall name :: name in files0 ==> !StartsWith(name, prefix)
    requires forall name :: name in listing0 ==> !StartsWith(name, prefix)
    requires forall s :: 0 <= s < |walk| ==> walk[s] < |outs|
    requires dir.files == Written(files0, prefix, walk, outs)
    requires dir.listing == listing0 + Partials(prefix, walk)
    modifies dir
    ensures dir.Valid()
    ensures dir.files == files0[outputFile := Flatten(Reorder(outs, walk))]
    ensures dir.listing == Opened(listing0, outputFile)
  {
    MergeFiles(dir, outputFile, prefix);
    WrittenAt(files0, prefix, walk, outs);
    MergedPartials(Written(files0, prefix, walk, outs), listing0, prefix, walk, outs);
    FilesAfterMerge(files0, prefix, walk, outs, outputFile, Flatten(Reorder(outs, walk)));
    ListingAfterMerge(listing0, prefix, walk, outputFile);
  }
}

=== FILE: pipeline.dfy ===
/**
 * One extraction pass of `main`, run one step after another: the image list is
 * split into one chunk per worker, each worker writes its partial features file
 * `<prefix><index>.json` and reports progress, the progress printer drains the
 * queue up to the `CLOSE` put after the workers, and the partial files are merged
 * into the features file.
 */
module Pipeline {
  import opened Wrappers
  import opened Json
  import opened Messages
  import opened Storage
  import opened Extraction
  import opened Enumeration
  import opened Chunking
  import opened Progress
  import opened PartialFiles

  /** Expanding the chunks one by one and concatenating gives the expansion of the whole list. */
  lemma {:induction false} ExpandAllFlatten(extractor: Extractor, chunks: seq<seq<ImageRecord>>, rotations: int,
                                            outs: seq<seq<Line>>)
    requires |outs| == |chunks|
    requires forall j :: 0 <= j < |chunks| ==> outs[j] == ExpandAll(extractor, chunks[j], rotations, ProcessGammas)
    ensures ExpandAll(extractor, Flatten(chunks), rotations, ProcessGammas) == Flatten(outs)
  {
    if chunks != [] {
      ExpandAllFlatten(extractor, chunks[1..], rotations, outs[1..]);
      ExpandAllAppend(extractor, chunks[0], Flatten(chunks[1..]), rotations, ProcessGammas);
    }
  }

  /** What each worker writes: the expansion of its chunk with the process gamma pairs. */
  function ChunkOutputs(extractor: Extractor, chunks: seq<seq<ImageRecord>>, rotations: int): seq<seq<Line>>
  {
    seq(|chunks|, j requires 0 <= j < |chunks| => ExpandAll(extractor, chunks[j], rotations, ProcessGammas))
  }

  /**
   * The features file of a pass whose partial files the directory walk lists in the
   * order `walk`: the expansion of each worker's chunk, the chunks taken in walk order.
   */
  function PassContent(extractor: Extractor, records: seq<ImageRecord>, threads: nat, rotations: int,
                       walk: seq<nat>): seq<Line>
    requires threads > 0 && IsOrder(walk, threads)
  {
    ExpandAll(extractor, Flatten(Reorder(PartitionChunks(records, threads), walk)), rotations, ProcessGammas)
  }

  /**
   * Whatever the walk order, every record is in exactly one chunk and the features
   * file holds exactly the lines of every record, each as often as the expansion
   * writes it; when the walk lists the partial files in worker order, the file is
   * the expansion of the records in order.
   */
  lemma PassContentSpec(extractor: Extractor, records: seq<ImageRecord>, threads: nat, rotations: int,
                        walk: seq<nat>)
    requires threads > 0 && IsOrder(walk, threads)
    ensures multiset(Flatten(Reorder(PartitionChunks(records, threads), walk))) == multiset(records)
    ensures multiset(PassContent(extractor, records, threads, rotations, walk))
            == multiset(ExpandAll(extractor, records, rotations, ProcessGammas))
    ensures walk == Identity(threads) ==>
              PassContent(extractor, records, threads, rotations, walk) == ExpandAll(extractor, records, rotations, ProcessGammas)
  {
    var chunks := PartitionChunks(records, threads);
    PartitionChunksSpec(records, threads);
    FlattenReorder(chunks, walk);
    var outs := ChunkOutputs(extractor, chunks, rotations);
    ExpandAllFlatten(extractor, chunks, rotations, outs);
    ExpandAllFlatten(extractor, Reorder(chunks, walk), rotations, Reorder(outs, walk));
    FlattenReorder(outs, walk);
    if walk == Identity(threads) {
      ReorderIdentity(chunks);
    }
  }

  /** The features file is what merging the workers' outputs in walk order gives. */
  lemma PassContentMerged(extractor: Extractor, records: seq<ImageRecord>, threads: nat, rotations: int,
                          walk: seq<nat>)
    requires threads > 0 && IsOrder(walk, threads)
    ensures PassContent(extractor, records, threads, rotations, walk)
            == Flatten(Reorder(ChunkOutputs(extractor, PartitionChunks(records, threads), rotations), walk))
  {
    var chunks := PartitionChunks(records, threads);
    var outs := ChunkOutputs(extractor, chunks, rotations);
    ExpandAllFlatten(extractor, Reorder(chunks, walk), rotations, Reorder(outs, walk));
  }

  // ---------------------------------------------------------------------------
  // The pass.
  // ---------------------------------------------------------------------------

  /** The progress bookkeeping after the `i`-th worker to run has put its messages on the queue. */
  lemma ProgressStep(before: seq<Message>, chunks: seq<seq<ImageRecord>>, i: nat)
    requires i < |chunks|
    requires forall k :: 0 <= k < |before| ==> before[k] == Message(PROGRESS, 20)
    requires 0 <= |Flatten(chunks[..i])| - Reported(before) <= 19 * i
    ensures var after := before + ProgressMessages(|chunks[i]|);
            (forall k :: 0 <= k < |after| ==> after[k] == Message(PROGRESS, 20))
            && 0 <= |Flatten(chunks[..i + 1])| - Reported(after) <= 19 * (i + 1)
  {
    ProgressMessagesCount(|chunks[i]|);
    ReportedAppend(before, ProgressMessages(|chunks[i]|));
    assert chunks[..i + 1] == chunks[..i] + [chunks[i]];
    FlattenAppend(chunks[..i], [chunks[i]]);
    assert Flatten([chunks[i]]) == chunks[i] + Flatten<ImageRecord>([]);
  }

  /**
   * The extraction processes, one at a time in the order `walk`: worker `j` writes the
   * features of `chunks[j]` to its partial file and puts its progress messages on the
   * queue. The order the workers create their files in is the order the directory
   * walk lists them in.
   */
  method RunWriters(dir: Directory, queue: MessageQueue, chunks: seq<seq<ImageRecord>>, extractor: Extractor,
                    rotations: int, prefix: string, walk: seq<nat>)
    requires dir.Valid() && IsOrder(walk, |chunks|)
    requires forall name :: name in dir.files ==> !StartsWith(name, prefix)
    requires queue.items == []
    modifies dir, queue
    ensures dir.Valid()
    ensures dir.files == Written(old(dir.files), prefix, walk, ChunkOutputs(extractor, chunks, rotations))
    ensures dir.listing == old(dir.listing) + Partials(prefix, walk)
    ensures forall k :: 0 <= k < |queue.items| ==> queue.items[k] == Message(PROGRESS, 20)
    ensures 0 <= |Flatten(Reorder(chunks, walk))| - Reported(queue.items) <= 19 * |chunks|
  {
    ghost var outs := ChunkOutputs(extractor, chunks, rotations);
    ghost var ordered := Reorder(chunks, walk);
    var i := 0;
    assert dir.listing + [] == dir.listing;
    while i < |chunks|
      invariant 0 <= i <= |chunks|
      invariant dir.Valid()
      invariant dir.files == Written(old(dir.files), prefix, walk[..i], outs)
      invariant dir.listing == old(dir.listing) + Partials(prefix, walk[..i])
      invariant forall k :: 0 <= k < |queue.items| ==> queue.items[k] == Message(PROGRESS, 20)
      invariant 0 <= |Flatten(ordered[..i])| - Reported(queue.items) <= 19 * i
    {
      var j := walk[i];
      ProgressStep(queue.items, ordered, i);
      var writer := new FeaturesDataWriterProcess(chunks[j], extractor, queue);
      var file := writer.WriteFeatures(rotations);
      OrderStep(walk, |chunks|, i);
      StorePartial(dir, prefix, j, file, old(dir.files), old(dir.listing), walk[..i], outs);
      i := i + 1;
    }
    assert walk[..i] == walk && ordered[..i] == ordered;
  }

  /**
   * After the workers are joined `main` puts the `CLOSE`, and the printer, given the
   * number of records as its total, returns on it having taken every message.
   */
  method CloseAndDrain(queue: MessageQueue, total: int, ghost slack: int) returns (outcome: ProgressOutcome)
    requires forall k :: 0 <= k < |queue.items| ==> queue.items[k] == Message(PROGRESS, 20)
    requires 0 <= total - Reported(queue.items) <= slack
    modifies queue
    ensures outcome.Closed? && 0 <= total - outcome.completed <= slack
    ensures queue.items == []
  {
    ghost var msgs := queue.items;
    queue.Put(Message(CLOSE, 0));
    ReportedPositive(msgs);
    if msgs == [] {
      assert queue.items == [Message(CLOSE, 0)];
    } else {
      WritersThenClose(msgs, 0, total);
    }
    outcome := ProgressProcess(queue, total);
  }

  /**
   * One pass of `main` (lines 236-250 for training): the records are partitioned among
   * `threads` workers, which write their partial files; the printer drains the queue up
   * to the `CLOSE`; the partial files are merged into `outputFile`. On a directory
   * holding no partial file, the features file ends up holding each chunk's expansion
   * in the order `walk` the directory walk lists the partial files, so every line of
   * every record, and nothing else changes; the printer returns on the `CLOSE`, having
   * counted all records but at most 19 per worker.
   */
  method RunPass(dir: Directory, records: seq<ImageRecord>, extractor: Extractor, threads: nat, rotations: int,
                 outputFile: string, prefix: string, walk: seq<nat>)
    returns (outcome: ProgressOutcome)
    requires dir.Valid() && threads > 0 && IsOrder(walk, threads)
    requires forall name :: name in dir.files ==> !StartsWith(name, prefix)
    requires !StartsWith(outputFile, prefix)
    modifies dir
    ensures dir.Valid()
    ensures dir.files == old(dir.files)[outputFile := PassContent(extractor, records, threads, rotations, walk)]
    ensures multiset(dir.files[outputFile]) == multiset(ExpandAll(extractor, records, rotations, ProcessGammas))
    ensures dir.listing == Opened(old(dir.listing), outputFile)
    ensures outcome.Closed? && 0 <= |records| - outcome.completed <= 19 * threads
  {
    var queue := new MessageQueue();
    var chunks := PartitionChunks(records, threads);
    PassContentSpec(extractor, records, threads, rotations, walk);
    PassContentMerged(extractor, records, threads, rotations, walk);
    RunWriters(dir, queue, chunks, extractor, rotations, prefix, walk);
    PartitionChunksSpec(records, threads);
    FlattenReorderLength(chunks, walk);
    outcome := CloseAndDrain(queue, |records|, 19 * threads);
    MergePartials(dir, outputFile, prefix, old(dir.files), old(dir.listing), walk,
                  ChunkOutputs(extractor, chunks, rotations));
  }

  lemma {:induction false} ReportedPositive(msgs: seq<Message>)
    requires forall k :: 0 <= k < |msgs| ==> msgs[k] == Message(PROGRESS, 20)
    ensures Reported(msgs) == 20 * |msgs|
  {
    if msgs != [] {
      ReportedPositive(msgs[..|msgs| - 1]);
    }
  }

  // ---------------------------------------------------------------------------
  // `main`.
  // ---------------------------------------------------------------------------

  const LabelsFile: string := "labels.json"
  const FeaturesFile: string := "features.json"
  const TestFeaturesFile: string := "testfeatures.json"
  const TrainPrefix: string := "train-output-"
  const TestPrefix: string := "test-output-"
  const ImageExtension: string := "jpg"

  /** The command-line arguments `main` uses. */
  datatype Arguments = Arguments(
    imageDirTrain: string,
    imageDirTest: string,
    activeTestMode: bool,
    forPrediction: bool,
    threads: nat,
    rotations: int)

  /** The records of one image directory: labelled by sub-directory, or unlabelled for prediction. */
  function PassRecords(imageDir: string, forPrediction: bool, store: ImageStore): (records: seq<ImageRecord>)
    ensures forPrediction ==> forall i :: 0 <= i < |records| ==> records[i].labelId == None
    ensures !forPrediction ==> forall i :: 0 <= i < |records| ==> records[i].labelId.Some?
  {
    if forPrediction then Tag(store.glob(GlobPattern(imageDir, ImageExtension)), None)
    else TrainingRecords(imageDir, ImageExtension, store)
  }

  /** The files `main` writes and the prefixes of the partial files of its two passes. */
  datatype OutputNames = OutputNames(labels: string, features: string, testFeatures: string,
                                     trainPrefix: string, testPrefix: string)

  /** Three different files, none of which carries either partial-file prefix. */
  predicate Separate(names: OutputNames) {
    names.labels != names.features && names.labels != names.testFeatures && names.features != names.testFeatures
    && !StartsWith(names.labels, names.trainPrefix) && !StartsWith(names.labels, names.testPrefix)
    && !StartsWith(names.features, names.trainPrefix) && !StartsWith(names.features, names.testPrefix)
    && !StartsWith(names.testFeatures, names.trainPrefix) && !StartsWith(names.testFeatures, names.testPrefix)
  }

  const MainNames: OutputNames := OutputNames(LabelsFile, FeaturesFile, TestFeaturesFile, TrainPrefix, TestPrefix)

  /** No merge of `main` deletes one of its output files, and no step overwrites another's file. */
  lemma OutputNamesUnprefixed()
    ensures Separate(MainNames)
  {
    assert FeaturesFile[0] != TrainPrefix[0] && FeaturesFile[0] != TestPrefix[0];
    assert TestFeaturesFile[1] != TrainPrefix[1] && TestFeaturesFile[4] != TestPrefix[4];
    assert |LabelsFile| != |FeaturesFile| && |LabelsFile| != |TestFeaturesFile|;
  }

  /** One pass over one image directory: its records, then `RunPass` into `outputFile`. */
  method PassOver(dir: Directory, imageDir: string, forPrediction: bool, store: ImageStore, extractor: Extractor,
                  threads: nat, rotations: int, outputFile: string, prefix: string, walk: seq<nat>)
    returns (outcome: ProgressOutcome)
    requires dir.Valid() && threads > 0 && IsOrder(walk, threads)
    requires forall name :: name in dir.files ==> !StartsWith(name, prefix)
    requires !StartsWith(outputFile, prefix)
    modifies dir
    ensures dir.Valid()
    ensures dir.files == old(dir.files)[outputFile :=
              PassContent(extractor, PassRecords(imageDir, forPrediction, store), threads, rotations, walk)]
    ensures dir.listing == Opened(old(dir.listing), outputFile)
    ensures outcome.Closed? && 0 <= |PassRecords(imageDir, forPrediction, store)| - outcome.completed <= 19 * threads
  {
    var records;
    if forPrediction {
      records := PredictionPaths(imageDir, ImageExtension, store);
      assert records == Tag(store.glob(GlobPattern(imageDir, ImageExtension)), None);
    } else {
      records := TrainingPaths(imageDir, ImageExtension, store);
    }
    outcome := RunPass(dir, records, extractor, threads, rotations, outputFile, prefix, walk);
  }

  /** The listing `main` leaves: the labels file (training only), then the features files, each listed once. */
  function MainListing(listing: seq<string>, args: Arguments, names: OutputNames): seq<string>
  {
    var labelled := if args.forPrediction then listing else Opened(listing, names.labels);
    var trained := Opened(labelled, names.features);
    if args.activeTestMode then Opened(trained, names.testFeatures) else trained
  }

  /** The files `main` leaves: the labels file (training only), then the features files. */
  ghost function MainFiles(files: map<string, seq<Line>>, args: Arguments, names: OutputNames, labels: seq<Line>,
                           train: seq<Line>, test: seq<Line>): map<string, seq<Line>>
  {
    var labelled := if args.forPrediction then files else files[names.labels := labels];
    var trained := labelled[names.features := train];
    if args.activeTestMode then trained[names.testFeatures := test] else trained
  }

  /** A file `main` leaves as it found it: present with the same content, or still absent. */
  ghost predicate Kept(before: map<string, seq<Line>>, after: map<string, seq<Line>>, name: string) {
    (name in after <==> name in before) && (name in before ==> after[name] == before[name])
  }

  /** Each output file holds what its step wrote, only in the modes that write it, and nothing else changes. */
  lemma MainFilesSpec(files: map<string, seq<Line>>, args: Arguments, names: OutputNames, labels: seq<Line>,
                      train: seq<Line>, test: seq<Line>)
    requires Separate(names)
    ensures var after := MainFiles(files, args, names, labels, train, test);
            names.features in after && after[names.features] == train
            && (!args.forPrediction ==> names.labels in after && after[names.labels] == labels)
            && (args.forPrediction ==> Kept(files, after, names.labels))
            && (args.activeTestMode ==> names.testFeatures in after && after[names.testFeatures] == test)
            && (!args.activeTestMode ==> Kept(files, after, names.testFeatures))
            && (forall name :: name != names.labels && name != names.features && name != names.testFeatures ==>
                  Kept(files, after, name))
            && ((forall name :: name in files ==> !StartsWith(name, names.trainPrefix) && !StartsWith(name, names.testPrefix))
                ==> forall name :: name in after ==> !StartsWith(name, names.trainPrefix) && !StartsWith(name, names.testPrefix))
  {
  }

  /**
   * `main`, run one step after another, writing to the files `names` (`MainNames` in the
   * program): in training mode the labels file first; then the training pass and, in
   * test mode, the test pass, the partial files of each walked in the order `trainWalk`
   * or `testWalk`. On a directory holding no partial file, each features file holds its
   * pass's content, the labels file is written only in training mode and the test
   * features file only in test mode, every other file is as it was, and no partial file
   * is left.
   */
  method ExtractFeatures(dir: Directory, args: Arguments, names: OutputNames, store: ImageStore, extractor: Extractor,
                         trainWalk: seq<nat>, testWalk: seq<nat>)
    returns (trainOutcome: ProgressOutcome, testOutcome: Option<ProgressOutcome>)
    requires dir.Valid() && args.threads > 0 && Separate(names)
    requires IsOrder(trainWalk, args.threads) && IsOrder(testWalk, args.threads)
    requires forall name :: name in dir.files ==> !StartsWith(name, names.trainPrefix) && !StartsWith(name, names.testPrefix)
    modifies dir
    ensures dir.Valid()
    ensures dir.files == MainFiles(old(dir.files), args, names, [LabelsDocument(GetLabels(args.imageDirTrain, store))],
                                   PassContent(extractor, PassRecords(args.imageDirTrain, args.forPrediction, store),
                                               args.threads, args.rotations, trainWalk),
                                   PassContent(extractor, PassRecords(args.imageDirTest, args.forPrediction, store),
                                               args.threads, args.rotations, testWalk))
    ensures args.activeTestMode <==> testOutcome.Some?
    ensures dir.listing == MainListing(old(dir.listing), args, names)
    ensures trainOutcome.Closed?
            && 0 <= |PassRecords(args.imageDirTrain, args.forPrediction, store)| - trainOutcome.completed <= 19 * args.threads
    ensures testOutcome.Some? ==>
              testOutcome.value.Closed?
              && 0 <= |PassRecords(args.imageDirTest, args.forPrediction, store)| - testOutcome.value.completed
                   <= 19 * args.threads
  {
    if !args.forPrediction {
      WriteLabels(dir, GetLabels(args.imageDirTrain, store), names.labels);
    }
    trainOutcome := PassOver(dir, args.imageDirTrain, args.forPrediction, store, extractor, args.threads, args.rotations,
                             names.features, names.trainPrefix, trainWalk);
    testOutcome := None;
    if args.activeTestMode {
      var outcome := PassOver(dir, args.imageDirTest, args.forPrediction, store, extractor, args.threads, args.rotations,
                              names.testFeatures, names.testPrefix, testWalk);
      testOutcome := Some(outcome);
    }
  }
}

=== FILE: progress.dfy ===
/**
 * The consumers of progress: `ProgressProcess`, which adds up the `PROGRESS`
 * counts taken off the queue until the first `CLOSE`, and `progress_iterator`,
 * which passes values through while counting them.
 */
module Progress {
  import opened Messages

  /**
   * How `ProgressProcess` ends, with the count it had reached: returned on a
   * `CLOSE`, raised `ZeroDivisionError` computing the estimate, or still waiting
   * on an empty queue.
   */
  datatype ProgressOutcome =
    | Closed(completed: int)
    | ZeroDivision(completed: int)
    | Waiting(completed: int)

  /**
   * `ProgressProcess` on the messages `items`, having counted `completed` so far:
   * the outcome and how many messages it takes off the queue. After each message
   * other than `CLOSE` the estimate divides by `completed` and the percentage by
   * `total`, so either being zero raises.
   */
  function Consume(items: seq<Message>, completed: int, total: int): (r: (ProgressOutcome, nat))
    ensures r.1 <= |items|
    ensures r.1 == 0 <==> items == []
    ensures r.0.Waiting? ==> r.1 == |items|
    decreases |items|
  {
    if items == [] then (Waiting(completed), 0)
    else if items[0].kind == CLOSE then (Closed(completed), 1)
    else
      var c := completed + Counted(items[0]);
      if c == 0 || total == 0 then (ZeroDivision(c), 1)
      else
        var rest := Consume(items[1..], c, total);
        (rest.0, rest.1 + 1)
  }

  /** `ProgressProcess`: takes messages off the queue until it returns, raises or finds the queue empty. */
  method ProgressProcess(queue: MessageQueue, total: int) returns (outcome: ProgressOutcome)
    modifies queue
    ensures outcome == Consume(old(queue.items), 0, total).0
    ensures queue.items == old(queue.items)[Consume(old(queue.items), 0, total).1..]
  {
    var completed := 0;
    ghost var taken := 0;
    while true
      invariant 0 <= taken <= |old(queue.items)|
      invariant queue.items == old(queue.items)[taken..]
      invariant Consume(old(queue.items), 0, total) == StepResult(Consume(queue.items, completed, total), taken)
      decreases |queue.items|
    {
      if queue.items == [] {
        return Waiting(completed);
      }
      var m := queue.Get();
      taken := taken + 1;
      if m.kind == CLOSE {
        return Closed(completed);
      } else if m.kind == PROGRESS {
        completed := completed + m.data;
      }
      if completed == 0 || total == 0 {
        return ZeroDivision(completed);
      }
    }
  }

  /** The outcome of the rest of the queue, counted together with the `taken` messages before it. */
  function StepResult(r: (ProgressOutcome, nat), taken: nat): (ProgressOutcome, nat)
  {
    (r.0, r.1 + taken)
  }

  /**
   * On `Closed` the last message taken is the first `CLOSE` of the queue, and the
   * count is what the `PROGRESS` messages before it carried; nothing after it is taken.
   */
  lemma {:induction false} ClosedCountsPrefix(items: seq<Message>, completed: int, total: int)
    requires Consume(items, completed, total).0.Closed?
    ensures var (outcome, taken) := Consume(items, completed, total);
            0 < taken <= |items| && items[taken - 1].kind == CLOSE
            && (forall i :: 0 <= i < taken - 1 ==> items[i].kind != CLOSE)
            && outcome.completed == completed + Reported(items[..taken - 1])
    decreases |items|
  {
    if items[0].kind != CLOSE {
      var c := completed + Counted(items[0]);
      var tail := items[1..];
      ClosedCountsPrefix(tail, c, total);
      var taken := Consume(tail, c, total).1;
      assert items[..taken] == [items[0]] + tail[..taken - 1];
      ReportedAppend([items[0]], tail[..taken - 1]);
      assert [items[0]][..0] == [];
      forall i | 0 < i < taken
        ensures items[i].kind != CLOSE
      {
        assert items[i] == tail[i - 1];
      }
    } else {
      assert items[..0] == [];
    }
  }

  /** With an empty count and any first message but `CLOSE` that adds nothing, the estimate divides by zero. */
  lemma ZeroCountRaises(items: seq<Message>, total: int)
    requires items != [] && items[0].kind != CLOSE && Counted(items[0]) == 0
    ensures Consume(items, 0, total) == (ZeroDivision(0), 1)
  {
  }

  /** With no total to compare against, the first message other than `CLOSE` raises. */
  lemma ZeroTotalRaises(items: seq<Message>, completed: int)
    requires items != [] && items[0].kind != CLOSE
    ensures Consume(items, completed, 0) == (ZeroDivision(completed + Counted(items[0])), 1)
  {
  }

  /**
   * The messages of the writers, each a positive `PROGRESS` count, followed by the
   * `CLOSE` that `main` puts after joining them: every message is taken and the
   * count is their total, in whatever order the writers interleaved them.
   */
  lemma {:induction false} WritersThenClose(msgs: seq<Message>, completed: int, total: int)
    requires total != 0 && completed >= 0
    requires forall i :: 0 <= i < |msgs| ==> msgs[i].kind == PROGRESS && msgs[i].data > 0
    ensures Consume(msgs + [Message(CLOSE, 0)], completed, total) == (Closed(completed + Reported(msgs)), |msgs| + 1)
    decreases |msgs|
  {
    if msgs == [] {
      assert msgs + [Message(CLOSE, 0)] == [Message(CLOSE, 0)];
    } else {
      var tail := msgs[1..];
      assert (msgs + [Message(CLOSE, 0)])[1..] == tail + [Message(CLOSE, 0)];
      WritersThenClose(tail, completed + msgs[0].data, total);
      assert msgs == [msgs[0]] + tail;
      ReportedAppend([msgs[0]], tail);
      assert [msgs[0]][..0] == [];
    }
  }

  // ---------------------------------------------------------------------------
  // `progress_iterator`.
  // ---------------------------------------------------------------------------

  /** What a consumer of `progress_iterator` sees: the values yielded, then whether it raised. */
  datatype Trace<T> = Trace(yielded: seq<T>, raised: bool)

  /**
   * The iterator after `count` values: each value is counted before it is yielded, and
   * at every 20th the percentage divides by `total`.
   */
  function Passed<T>(values: seq<T>, count: nat, total: int): (t: Trace<T>)
    ensures |t.yielded| <= |values| && t.yielded == values[..|t.yielded|]
    ensures !t.raised ==> t.yielded == values
    decreases |values|
  {
    if values == [] then Trace([], false)
    else if (count + 1) % 20 == 0 && total == 0 then Trace([], true)
    else
      var rest := Passed(values[1..], count + 1, total);
      Trace([values[0]] + rest.yielded, rest.raised)
  }

  /** `progress_iterator(values, total)` run to the end. */
  function ProgressIterator<T>(values: seq<T>, total: int): (t: Trace<T>)
    ensures |t.yielded| <= |values| && t.yielded == values[..|t.yielded|]
    ensures !t.raised ==> t.yielded == values
  {
    Passed(values, 0, total)
  }

  lemma {:induction false} PassedThrough<T>(values: seq<T>, count: nat, total: int)
    requires total != 0
    ensures Passed(values, count, total) == Trace(values, false)
    decreases |values|
  {
    if values != [] {
      PassedThrough(values[1..], count + 1, total);
      assert [values[0]] + values[1..] == values;
    }
  }

  lemma {:induction false} PassedZeroTotal<T>(values: seq<T>, count: nat)
    requires count < 20
    ensures |values| < 20 - count ==> Passed(values, count, 0) == Trace(values, false)
    ensures |values| >= 20 - count ==> Passed(values, count, 0) == Trace(values[..19 - count], true)
    decreases |values|
  {
    if values != [] && count + 1 < 20 {
      PassedZeroTotal(values[1..], count + 1);
      assert [values[0]] + values[1..] == values;
      if |values| >= 20 - count {
        assert [values[0]] + values[1..][..19 - (count + 1)] == values[..19 - count];
      }
    }
  }

  /**
   * The iterator passes every value through in order, except that with a zero total
   * the 20th value raises instead of being yielded, after the first 19.
   */
  lemma ProgressIteratorSpec<T>(values: seq<T>, total: int)
    ensures total != 0 || |values| < 20 ==> ProgressIterator(values, total) == Trace(values, false)
    ensures total == 0 && |values| >= 20 ==> ProgressIterator(values, total) == Trace(values[..19], true)
  {
    if total != 0 {
      PassedThrough(values, 0, total);
    } else {
      PassedZeroTotal(values, 0);
    }
  }
}

=== FILE: storage.dfy ===
/**
 * The output directory: the files the writers create, the labels file and the merged
 * features file. A file holds one JSON value per line; the directory keeps its names
 * in listing order, the order in which a directory walk reports them.
 */
module Storage {
  import opened Json

  predicate StartsWith(s: string, prefix: string) {
    |prefix| <= |s| && s[..|prefix|] == prefix
  }

  predicate Distinct(s: seq<string>) {
    forall i, j :: 0 <= i < j < |s| ==> s[i] != s[j]
  }

  /** The listing after opening `name` for writing: a new name is listed last. */
  function Opened(listing: seq<string>, name: string): (r: seq<string>)
    ensures name in r
    ensures Distinct(listing) ==> Distinct(r)
  {
    if name in listing then listing else listing + [name]
  }

  /** The listing after removing `name`. */
  function Without(listing: seq<string>, name: string): (r: seq<string>)
    ensures forall x :: x in r <==> x in listing && x != name
  {
    if listing == [] then []
    else if listing[0] == name then Without(listing[1..], name)
    else [listing[0]] + Without(listing[1..], name)
  }

  lemma {:induction false} WithoutDistinct(listing: seq<string>, name: string)
    requires Distinct(listing)
    ensures Distinct(Without(listing, name))
  {
    if listing != [] {
      assert Distinct(listing[1..]) by {
        forall i, j | 0 <= i < j < |listing[1..]| ensures listing[1..][i] != listing[1..][j] {
          assert listing[1..][i] == listing[i + 1] && listing[1..][j] == listing[j + 1];
        }
      }
      WithoutDistinct(listing[1..], name);
      var rest := Without(listing[1..], name);
      if listing[0] != name {
        assert listing[0] !in rest;
        var r := [listing[0]] + rest;
        forall i, j | 0 <= i < j < |r| ensures r[i] != r[j] {
          if i == 0 { assert r[j] == rest[j - 1]; } else { assert r[i] == rest[i - 1] && r[j] == rest[j - 1]; }
        }
      }
    }
  }

  /** Removing a name listed once, between `before` and `after`, leaves the rest in order. */
  lemma {:induction false} WithoutOnce(before: seq<string>, name: string, after: seq<string>)
    requires name !in before && name !in after
    ensures Without(before + [name] + after, name) == before + after
  {
    if before == [] {
      assert ([name] + after)[1..] == after;
      WithoutAbsent(after, name);
    } else {
      assert (before + [name] + after)[1..] == before[1..] + [name] + after;
      WithoutOnce(before[1..], name, after);
    }
  }

  lemma {:induction false} WithoutAbsent(listing: seq<string>, name: string)
    requires name !in listing
    ensures Without(listing, name) == listing
  {
    if listing != [] {
      WithoutAbsent(listing[1..], name);
    }
  }

  /** The names in `names` that do not start with `prefix`, in order. */
  function KeepUnprefixed(names: seq<string>, prefix: string): seq<string>
  {
    if names == [] then []
    else
      var last := names[|names| - 1];
      KeepUnprefixed(names[..|names| - 1], prefix) + (if StartsWith(last, prefix) then [] else [last])
  }

  /** A listing with no prefixed name is kept whole. */
  lemma {:induction false} KeepUnprefixedNone(names: seq<string>, prefix: string)
    requires forall i :: 0 <= i < |names| ==> !StartsWith(names[i], prefix)
    ensures KeepUnprefixed(names, prefix) == names
  {
    if names != [] {
      var init := names[..|names| - 1];
      KeepUnprefixedNone(init, prefix);
      assert init + [names[|names| - 1]] == names;
    }
  }

  lemma {:induction false} KeepUnprefixedMember(names: seq<string>, prefix: string, x: string)
    ensures x in KeepUnprefixed(names, prefix) <==> x in names && !StartsWith(x, prefix)
  {
    if names != [] {
      var init := names[..|names| - 1];
      KeepUnprefixedMember(init, prefix, x);
      assert names == init + [names[|names| - 1]];
    }
  }

  /** The files whose names do not start with `prefix`. */
  function Unprefixed(files: map<string, seq<Line>>, prefix: string): map<string, seq<Line>>
  {
    map name | name in files && !StartsWith(name, prefix) :: files[name]
  }

  /**
   * What the merge writes: the contents of the listed files that start with `prefix`,
   * one after the other in listing order.
   */
  function MergedContent(files: map<string, seq<Line>>, names: seq<string>, prefix: string): seq<Line>
  {
    if names == [] then []
    else
      var last := names[|names| - 1];
      MergedContent(files, names[..|names| - 1], prefix)
        + (if StartsWith(last, prefix) && last in files then files[last] else [])
  }

  lemma MergedContentSnoc(files: map<string, seq<Line>>, names: seq<string>, name: string, prefix: string)
    ensures MergedContent(files, names + [name], prefix) ==
              MergedContent(files, names, prefix) + (if StartsWith(name, prefix) && name in files then files[name] else [])
  {
    assert (names + [name])[..|names|] == names;
  }

  /** The files left once the prefixed ones among `names` are deleted. */
  ghost function Pruned(files: map<string, seq<Line>>, names: seq<string>, prefix: string): map<string, seq<Line>>
  {
    map name | name in files && !(StartsWith(name, prefix) && name in names) :: files[name]
  }

  lemma PrunedStep(files: map<string, seq<Line>>, names: seq<string>, name: string, prefix: string)
    ensures Pruned(files, names + [name], prefix) ==
              if StartsWith(name, prefix) then Pruned(files, names, prefix) - {name} else Pruned(files, names, prefix)
  {
  }

  lemma PrunedAll(files: map<string, seq<Line>>, names: seq<string>, prefix: string)
    requires forall name :: name in files ==> name in names
    ensures Pruned(files, names, prefix) == Unprefixed(files, prefix)
  {
  }

  /** A file that does not start with `prefix` takes no part in the merge, listed or not. */
  lemma {:induction false} MergedContentOutside(files: map<string, seq<Line>>, names: seq<string>, other: string, prefix: string)
    requires !StartsWith(other, prefix)
    ensures MergedContent(files[other := []], Opened(names, other), prefix) == MergedContent(files, names, prefix)
  {
    MergedContentUpdate(files, names, other, prefix);
    if other !in names {
      assert (names + [other])[..|names|] == names;
    }
  }

  lemma {:induction false} MergedContentUpdate(files: map<string, seq<Line>>, names: seq<string>, other: string, prefix: string)
    requires !StartsWith(other, prefix)
    ensures MergedContent(files[other := []], names, prefix) == MergedContent(files, names, prefix)
  {
    if names != [] {
      MergedContentUpdate(files, names[..|names| - 1], other, prefix);
    }
  }

  lemma DistinctAt(s: seq<string>, k: nat)
    requires Distinct(s) && k < |s|
    ensures s[k] !in s[..k] && s[k] !in s[k + 1..]
  {
    forall x | x in s[..k] ensures x != s[k] {
      var i :| 0 <= i < k && s[..k][i] == x;
      assert s[i] == x;
    }
    var tail := s[k + 1..];
    forall x | x in tail ensures x != s[k] {
      var i :| 0 <= i < |tail| && tail[i] == x;
      assert s[k + 1 + i] == x;
    }
  }

  /** The listing while the walk is at position `k` of `names`. */
  ghost function WalkListing(names: seq<string>, k: nat, prefix: string): seq<string>
    requires k <= |names|
  {
    KeepUnprefixed(names[..k], prefix) + names[k..]
  }

  /** One step of the merge loop, on the listing. */
  lemma MergeStepListing(names: seq<string>, k: nat, prefix: string)
    requires k < |names| && Distinct(names)
    ensures StartsWith(names[k], prefix) ==> Without(WalkListing(names, k, prefix), names[k]) == WalkListing(names, k + 1, prefix)
    ensures !StartsWith(names[k], prefix) ==> WalkListing(names, k, prefix) == WalkListing(names, k + 1, prefix)
  {
    var name := names[k];
    assert names[..k + 1][..k] == names[..k];
    assert names[k..] == [name] + names[k + 1..];
    assert KeepUnprefixed(names[..k + 1], prefix)
        == KeepUnprefixed(names[..k], prefix) + (if StartsWith(name, prefix) then [] else [name]);
    if StartsWith(name, prefix) {
      KeepUnprefixedMember(names[..k], prefix, name);
      DistinctAt(names, k);
      WithoutOnce(KeepUnprefixed(names[..k], prefix), name, names[k + 1..]);
      assert KeepUnprefixed(names[..k], prefix) + names[k..] == KeepUnprefixed(names[..k], prefix) + [name] + names[k + 1..];
    } else {
      assert KeepUnprefixed(names[..k], prefix) + names[k..] == KeepUnprefixed(names[..k], prefix) + [name] + names[k + 1..];
    }
  }

  /** One step of the merge loop, on the files. */
  lemma MergeStepFiles(files: map<string, seq<Line>>, names: seq<string>, k: nat, outputFile: string, prefix: string)
    requires k < |names| && Distinct(names) && !StartsWith(outputFile, prefix)
    requires names[k] in files
    ensures StartsWith(names[k], prefix) ==>
              && names[k] != outputFile
              && names[k] in Pruned(files, names[..k], prefix)
              && Pruned(files, names[..k], prefix)[names[k]] == files[names[k]]
              && (Pruned(files, names[..k], prefix)[outputFile := MergedContent(files, names[..k], prefix) + files[names[k]]]) - {names[k]}
                 == Pruned(files, names[..k + 1], prefix)[outputFile := MergedContent(files, names[..k + 1], prefix)]
    ensures !StartsWith(names[k], prefix) ==>
              Pruned(files, names[..k], prefix)[outputFile := MergedContent(files, names[..k], prefix)]
              == Pruned(files, names[..k + 1], prefix)[outputFile := MergedContent(files, names[..k + 1], prefix)]
  {
    var name := names[k];
    assert names[..k + 1][..k] == names[..k];
    assert names[..k + 1] == names[..k] + [name];
    PrunedStep(files, names[..k], name, prefix);
    assert MergedContent(files, names[..k + 1], prefix)
        == MergedContent(files, names[..k], prefix) + (if StartsWith(name, prefix) then files[name] else []);
    if StartsWith(name, prefix) {
      DistinctAt(names, k);
      var p0 := Pruned(files, names[..k], prefix);
      var m1 := MergedContent(files, names[..k + 1], prefix);
      var l := p0[outputFile := m1] - {name};
      var r := (p0 - {name})[outputFile := m1];
      assert l.Keys == r.Keys;
      assert forall x :: x in l ==> l[x] == r[x];
    } else {
      assert MergedContent(files, names[..k + 1], prefix) == MergedContent(files, names[..k], prefix);
    }
  }

  lemma UpdateTwice(m: map<string, seq<Line>>, key: string, a: seq<Line>, b: seq<Line>)
    ensures m[key := a][key := b] == m[key := b]
  {
  }

  lemma UpdateSame(m: map<string, seq<Line>>, key: string)
    requires key in m
    ensures m[key := m[key]] == m
  {
  }

  lemma PrunedNone(files: map<string, seq<Line>>, prefix: string)
    ensures Pruned(files, [], prefix) == files
  {
  }

  /** The files once every listed prefixed file is merged into `outputFile`. */
  lemma MergeFinal(files: map<string, seq<Line>>, listing: seq<string>, outputFile: string, prefix: string)
    requires !StartsWith(outputFile, prefix)
    requires forall name :: name in files ==> name in listing
    ensures Pruned(files[outputFile := []], Opened(listing, outputFile), prefix)
              [outputFile := MergedContent(files[outputFile := []], Opened(listing, outputFile), prefix)]
            == Unprefixed(files, prefix)[outputFile := MergedContent(files, listing, prefix)]
    ensures forall name :: name in Unprefixed(files, prefix)[outputFile := MergedContent(files, listing, prefix)] ==>
              !StartsWith(name, prefix)
    ensures forall name :: name in files && name != outputFile && !StartsWith(name, prefix) ==>
              name in Unprefixed(files, prefix)[outputFile := MergedContent(files, listing, prefix)] &&
              Unprefixed(files, prefix)[outputFile := MergedContent(files, listing, prefix)][name] == files[name]
  {
    MergedContentOutside(files, listing, outputFile, prefix);
    var names := Opened(listing, outputFile);
    var files0 := files[outputFile := []];
    assert forall name :: name in files0 ==> name in names;
    PrunedAll(files0, names, prefix);
    var m := MergedContent(files, listing, prefix);
    var l := Unprefixed(files0, prefix)[outputFile := m];
    var r := Unprefixed(files, prefix)[outputFile := m];
    assert l.Keys == r.Keys;
    assert forall x :: x in l ==> l[x] == r[x];
  }

  class Directory {
    var files: map<string, seq<Line>>
    var listing: seq<string>

    /** Every file is listed exactly once. */
    ghost predicate Valid()
      reads this
    {
      Distinct(listing) && forall name :: name in files <==> name in listing
    }

    constructor ()
      ensures Valid() && files == map[] && listing == []
    {
      files := map[];
      listing := [];
    }

    /** Opens `name` for writing (`'w'`): the file exists afterwards and is empty. */
    method Create(name: string)
      requires Valid()
      modifies this
      ensures Valid()
      ensures files == old(files)[name := []]
      ensures listing == Opened(old(listing), name)
    {
      files := files[name := []];
      listing := Opened(listing, name);
    }

    /** Writes `lines` at the end of an open file (`f.write`). */
    method Write(name: string, lines: seq<Line>)
      requires Valid() && name in files
      modifies this
      ensures Valid()
      ensures files == old(files)[name := old(files)[name] + lines]
      ensures listing == old(listing)
    {
      files := files[name := files[name] + lines];
    }

    /** Reads a whole file. */
    method Read(name: string) returns (content: seq<Line>)
      requires name in files
      ensures content == files[name]
    {
      content := files[name];
    }

    /** Deletes a file (`os.remove`). */
    method Remove(name: string)
      requires Valid() && name in files
      modifies this
      ensures Valid()
      ensures files == old(files) - {name}
      ensures listing == Without(old(listing), name)
    {
      files := files - {name};
      WithoutDistinct(listing, name);
      listing := Without(listing, name);
    }
  }

  /**
   * `_merge_files`: opens `outputFile` for writing, then walks the directory listing and,
   * for every file whose name starts with `prefix`, appends its content to the output and
   * deletes it.
   */
  method MergeFiles(dir: Directory, outputFile: string, prefix: string)
    requires dir.Valid()
    requires !StartsWith(outputFile, prefix)
    modifies dir
    ensures dir.Valid()
    ensures dir.files == Unprefixed(old(dir.files), prefix)[outputFile := MergedContent(old(dir.files), old(dir.listing), prefix)]
    ensures dir.listing == KeepUnprefixed(Opened(old(dir.listing), outputFile), prefix)
    ensures forall name :: name in dir.files ==> !StartsWith(name, prefix)
    ensures forall name :: name in old(dir.files) && name != outputFile && !StartsWith(name, prefix) ==>
              name in dir.files && dir.files[name] == old(dir.files)[name]
  {
    dir.Create(outputFile);
    var names := dir.listing;
    MergeListed(dir, names, outputFile, prefix);
    MergeFinal(old(dir.files), old(dir.listing), outputFile, prefix);
  }

  /** Appends the content of `name` to `outputFile` and deletes `name`. */
  method MoveInto(dir: Directory, name: string, outputFile: string)
    requires dir.Valid() && name in dir.files && outputFile in dir.files && name != outputFile
    modifies dir
    ensures dir.Valid()
    ensures dir.files == old(dir.files)[outputFile := old(dir.files)[outputFile] + old(dir.files)[name]] - {name}
    ensures dir.listing == Without(old(dir.listing), name)
  {
    var content := dir.Read(name);
    dir.Write(outputFile, content);
    dir.Remove(name);
  }

  /** The files while the walk is at position `k` of `names`. */
  ghost function WalkFiles(files: map<string, seq<Line>>, names: seq<string>, k: nat, outputFile: string, prefix: string)
    : map<string, seq<Line>>
    requires k <= |names|
  {
    Pruned(files, names[..k], prefix)[outputFile := MergedContent(files, names[..k], prefix)]
  }

  /** Before the walk nothing is merged: the state is the directory itself, the output empty. */
  lemma WalkStart(files: map<string, seq<Line>>, names: seq<string>, outputFile: string, prefix: string)
    requires outputFile in files && files[outputFile] == []
    ensures WalkListing(names, 0, prefix) == names
    ensures WalkFiles(files, names, 0, outputFile, prefix) == files
  {
    assert names[..0] == [] && names[0..] == names;
    PrunedNone(files, prefix);
    UpdateSame(files, outputFile);
  }

  /** After the walk every listed name has been visited. */
  lemma WalkEnd(files: map<string, seq<Line>>, names: seq<string>, outputFile: string, prefix: string)
    ensures WalkListing(names, |names|, prefix) == KeepUnprefixed(names, prefix)
    ensures WalkFiles(files, names, |names|, outputFile, prefix)
            == Pruned(files, names, prefix)[outputFile := MergedContent(files, names, prefix)]
  {
    assert names[..|names|] == names && names[|names|..] == [];
  }

  /** One iteration of the walk: the file at position `k` is merged when it carries the prefix. */
  method MergeAt(dir: Directory, names: seq<string>, k: nat, outputFile: string, prefix: string,
                 ghost files: map<string, seq<Line>>)
    requires k < |names| && Distinct(names) && !StartsWith(outputFile, prefix)
    requires forall name :: name in files <==> name in names
    requires dir.Valid() && dir.listing == WalkListing(names, k, prefix) && dir.files == WalkFiles(files, names, k, outputFile, prefix)
    modifies dir
    ensures dir.Valid() && dir.listing == WalkListing(names, k + 1, prefix)
    ensures dir.files == WalkFiles(files, names, k + 1, outputFile, prefix)
  {
    var name := names[k];
    MergeStepListing(names, k, prefix);
    MergeStepFiles(files, names, k, outputFile, prefix);
    ghost var p0 := Pruned(files, names[..k], prefix);
    ghost var m0 := MergedContent(files, names[..k], prefix);
    if StartsWith(name, prefix) {
      assert dir.files[name] == files[name] && dir.files[outputFile] == m0;
      MoveInto(dir, name, outputFile);
      UpdateTwice(p0, outputFile, m0, m0 + files[name]);
    }
  }

  /** The walk of `_merge_files` over a snapshot `names` of the listing, the output already open and empty. */
  method MergeListed(dir: Directory, names: seq<string>, outputFile: string, prefix: string)
    requires dir.Valid() && dir.listing == names
    requires outputFile in dir.files && dir.files[outputFile] == [] && !StartsWith(outputFile, prefix)
    modifies dir
    ensures dir.Valid()
    ensures dir.listing == KeepUnprefixed(names, prefix)
    ensures dir.files == Pruned(old(dir.files), names, prefix)[outputFile := MergedContent(old(dir.files), names, prefix)]
  {
    ghost var files0 := dir.files;
    WalkStart(files0, names, outputFile, prefix);
    var k := 0;
    while k < |names|
      invariant 0 <= k <= |names|
      invariant dir.Valid()
      invariant dir.listing == WalkListing(names, k, prefix)
      invariant dir.files == WalkFiles(files0, names, k, outputFile, prefix)
    {
      MergeAt(dir, names, k, outputFile, prefix, files0);
      k := k + 1;
    }
    WalkEnd(files0, names, outputFile, prefix);
  }
}

=== FILE: wrappers.dfy ===
/** Option and Result, used for Python's `None` and for the exceptions the pipeline can raise. */
module Wrappers {
  datatype Option<+T> = None | Some(value: T)

  datatype Result<+T, +E> = Ok(value: T) | Err(error: E)
}
